=== FILE: README.md ===
# Asylum appointment bot — a Dafny model of its checking logic

The bot polls the Spanish immigration booking portal (ICP, `icpplus`) for
asylum appointments in a list of provinces, and posts a Telegram message for
every province where one turns up. It comes in three variants:

- a requests-based bot (`asylum_bot_requests.py`), which fetches the start
  page with retries, posts the province form, and classifies the landing page
  by its text;
- a Selenium bot (`asylum_bot_selenium.py`) and a Playwright bot
  (`asylum_bot.py`), which walk the portal's pages (province, service, entry,
  user data, availability), classify the rendered page, extract the offered
  dates and office, and try to book.

This project models the deterministic core shared by all three. The web
server, the browser and the Telegram API are replaced by what the bot
*observes*: a script of HTTP outcomes, and pages given as lists of element
records. The core covers:

- the retry policy;
- form extraction and province-label resolution;
- the two availability rules and the detail extraction;
- the forward-only step sequence of a province check, with the resources it
  opens and closes;
- the per-province cycle;
- the Telegram message formatter, with the error and status message shapes.

Modules, one concept each:

- `Wrappers` — `Option`.
- `Text` — Python's `in` on strings, ASCII case mapping, `str.strip()` and
  decimal rendering.
- `Seqs` — first match in a sequence.
- `Portal` — the portal's URLs, field names and button captions, and the user
  profile. The profile is a parameter whose contents the model never inspects.
- `Html` — element, form and page records, and the selector predicates.
- `Retry` — `_make_request_with_retry`.
- `FormExtract` — the form's action URL, the `form_data` map and the province
  option.
- `Availability` — the text rule, the rendered rule, and the date and office
  extraction.
- `Steps` — the `if not step(): return None` chain.
- `Cycle` — `run_single_check`'s loop over provinces.
- `Notifier` — the message formatter, and a reader that recovers what a
  message says.
- `HttpBot`, `SeleniumBot`, `PlaywrightBot` — the three variants. `Browser`
  holds what the two browser bots share.

Clocks are parameters: the model takes one clock reading per cycle, a
`timestamp` string that every finding of that cycle carries, where the
program reads `datetime.now()` afresh for each finding. Sleeps are not performed; they are returned as numbers
(the back-off delays, and the 2-second pause after each province).

## Model

| member | source | states |
|---|---|---|
| Retry.BackoffSchedule | asylum_bot_requests.py:77-81 | The attempt-0 delay is 0, then 2, 4, and 6 from attempt 3 on; a delay never exceeds 6 seconds. The code's `min(2 ** attempt, 6)` is modelled, not the comment's "1s, 3s, 6s". |
| Retry.RetryFrom | asylum_bot_requests.py:75-120 | From iteration `a`, at most `max_retries` attempts are made in total. Every attempt before the last made was transient. The result is `None` when the last attempt is transient. Otherwise it is what that outcome settles to. The k-th delay is `Backoff` of the k-th sleeping attempt. |
| Retry.MakeRequestWithRetry | asylum_bot_requests.py:71-120 | At most `max_retries` requests are made; with `max_retries <= 0` none is made and the result is `None`. Every attempt after the first is preceded by exactly one delay. The k-th delay is `min(2^(k+1), 6)` and at most 6. |
| Retry.RequestWithRetry | asylum_bot_requests.py:75-120 | The imperative loop (sleep, try, return or continue) computes the same run as the recursive definition. |
| Retry.RetrySettles | asylum_bot_requests.py:87-100 | If attempts 0..k-1 are 5xx or exceptions and attempt k is not, exactly k+1 requests are made. The result is the `(content, url, status)` triple for status < 400 and `None` for 4xx. |
| Retry.RetryExhausts | asylum_bot_requests.py:87-120 | When every allowed attempt is a 5xx or an exception, all `max_retries` attempts are made and the result is `None`; nothing propagates. |
| Retry.LaterOutcomesUnused | asylum_bot_requests.py:97-100 | Outcomes scripted after the last attempt made cannot change the run. |
| FormExtract.LabelIndex | asylum_bot_requests.py:156-159 | Finds the first option whose stripped text equals the province: it matches, no earlier option matches, and `None` means no option matches. |
| FormExtract.ResolveLabel | asylum_bot_requests.py:154-159 | Returns `None` exactly when no option's stripped text equals the province; otherwise returns the first matching option's `value` (`''` when the option has none). |
| FormExtract.FirstMatchWins | asylum_bot_requests.py:156-159 | The first option labelled with the province decides the value; later duplicates are ignored (the `break`). |
| FormExtract.SubmitTargetCases | asylum_bot_requests.py:143-145 | An action starting with `/` is prefixed with the portal origin, and any other action is used unchanged. An empty action falls back to the start URL: the `action_url or self.base_url` at line 176. |
| FormExtract.FieldMap | asylum_bot_requests.py:150-165 | A name is a key of `form_data` exactly when some field contributes it. |
| FormExtract.FieldMapLastWins | asylum_bot_requests.py:150-165 | A name repeated in the form keeps the value of the last field that contributes it. |
| FormExtract.IgnoredElements | asylum_bot_requests.py:151-163 | Submit inputs, unnamed or empty-named elements, and tags other than `input`/`select` contribute nothing. |
| FormExtract.ProvinceSelectContribution | asylum_bot_requests.py:154-159 | The `provincia` select contributes exactly when one of its options carries the province's name, and then contributes that option's value. |
| Availability.MentionsAny | asylum_bot_requests.py:206-224 | The `for indicator in ...: if indicator in text` scan holds exactly when some phrase of the list occurs in the text. |
| Availability.ClassifyServicePage | asylum_bot_requests.py:191-254 | A negative phrase in the lowered text gives `None`. Otherwise the result is a finding exactly when a positive phrase occurs. A finding names the province, the landing URL and status `appointments_detected`. `calendar_found` holds iff a `calendario`/`calendar` table exists. `date_selection_available` holds iff an input/select name contains `fecha`. |
| Availability.NegativeOverridesPositive | asylum_bot_requests.py:197-214 | "no hay citas disponibles" contains the positive phrase "citas disponibles", yet the page is classified as closed. |
| Availability.DateTokens | asylum_bot_selenium.py:297-300 | Lists no empty date and no more dates than the page has elements. |
| Availability.DateTokensSound | asylum_bot_selenium.py:297-300 | Every listed date is the `value` of some date radio of the page. |
| Availability.DateTokensAppend | asylum_bot_selenium.py:297-300 | Dates keep document order: the dates of a page split in two are the two lists joined. |
| Availability.DateTokensComplete | asylum_bot_selenium.py:297-300 | Every date radio with a non-empty value is listed. |
| Availability.OfficeText | asylum_bot_selenium.py:305-309 | The office is the text of the first `.oficina`/`.office` element, or `''` when there is none. |
| Browser.CheckAvailability | asylum_bot_selenium.py:235-283 | A case-insensitive negative phrase gives `(False, None)` whatever markup is present. Otherwise the page is open exactly when some calendar selector matches an element. An open page's details are its date tokens and office text. |
| Browser.VerdictIsRenderedRule | asylum_bot.py:226-274 | The verdict depends only on the rendered rule, whatever the office extractor. |
| Browser.NegativePhraseWins | asylum_bot.py:238-248 | A negative phrase in any letter case closes the page, even with calendar markup present. |
| Browser.BrowserNotice | telegram_notifier.py:67-88 | A browser finding's message lists its first five dates in order, shows the office iff it is non-empty, and announces a booking iff one was attempted. |
| Browser.NoticesComeFromOpenPages | asylum_bot_selenium.py:412-430 | If every finding names its province and comes from an open page, then every notice of the cycle does too. |
| Steps.Passed | asylum_bot_selenium.py:369-383 | Counts the leading steps that succeed. |
| Steps.Run | asylum_bot_selenium.py:369-383 | The four steps run in the fixed order province, service, entry, user data; the availability page is read only once all four pass (see the bots' `CheckProvince`). The trace is a prefix of that order, and every step in it but the last succeeded. The check completes iff every step succeeds. An incomplete check stopped at a failing step. |
| Steps.FailureStopsLaterSteps | asylum_bot.py:358-373 | Once step k fails, what later steps would report cannot change the outcome, and at most k+1 steps run. |
| Steps.PassedAgree | asylum_bot.py:358-373 | Two step-result lists that agree up to a failing step have the same number of passed steps, and it is at most that step's index. |
| Cycle.RunCycle | asylum_bot_requests.py:260-285 | One notice per finding, in the same order. Each notice carries the province of its check, in configured order. There is one 2-second pause per province. |
| Cycle.RunCycleAppend | asylum_bot_selenium.py:412-430 | Checking two groups of provinces back to back gives the two reports joined, so order is kept. |
| Cycle.FailureIsIsolated | asylum_bot.py:406-424 | A province whose check raised adds nothing and hides none of the provinces after it. |
| Cycle.SingleProvince | asylum_bot_requests.py:268-277 | A finding is recorded and notified under its province's name; anything else sends nothing. |
| HttpBot.CheckProvince | asylum_bot_requests.py:122-258 | The form is posted only when `form_data` has a `provincia` entry, and a finding implies a post. A finding names the province, the timestamp and `appointments_detected`, and its URL contains `citar?p=4&locale=es`. At most 6 requests are made; without a post, at most 3. No delay exceeds 6 seconds. |
| HttpBot.FindingIff | asylum_bot_requests.py:167-254 | A check finds appointments iff the form is posted, the POST succeeds, its URL contains the service-page marker, and the text rule finds the landing page open. |
| HttpBot.UnofferedProvinceNotPosted | asylum_bot_requests.py:167-169 | When no field yields a `provincia` entry, no POST is made, nothing is found, and only the GET's requests are spent. |
| HttpBot.PostsResolvedProvince | asylum_bot_requests.py:151-176 | When the `provincia` select offers the province and no later field overrides the key, the form is posted with the first matching option's value. |
| HttpBot.CheckCost | asylum_bot_requests.py:128-181 | The requests and delays of a check are those of the GET, followed by those of the POST when one is made. |
| HttpBot.RunSingleCheck | asylum_bot_requests.py:260-285 | One pause per province and one notice per finding. Every notice names its province, and that province is one of those configured. |
| HttpBot.NoticesComeFromChecks | asylum_bot_requests.py:267-277 | Every notice is a finding of the province it is filed under. |
| HttpBot.HttpNoticeIsManual | telegram_notifier.py:67-88 | A requests-based finding has no dates, office or booking flag, so its message shows none and asks for a manual booking. |
| HttpBot.PaddedOptionResolves | asylum_bot_requests.py:156-158 | An option whose text is the province padded with blanks resolves to its value, after a non-matching option. |
| HttpBot.ScenarioFieldMap | asylum_bot_requests.py:150-165 | For a form with a hidden token, the `provincia` select and a submit button, `form_data` holds the token and the option value, and no button. |
| HttpBot.ScenarioRequests | asylum_bot_requests.py:75-100 | Two 503 answers and then a 200 take 3 requests with delays 2 and 4. |
| HttpBot.ScenarioFinds | asylum_bot_requests.py:122-254 | End to end: the worked example posts `{token, provincia}`, costs 4 requests with delays `[2, 4]`, and finds appointments iff the redirect URL contains the service-page marker. |
| SeleniumBot.FindByName | asylum_bot_selenium.py:97-98 | `find_element(By.NAME, n)` returns an element with that name exactly when the page has one. |
| SeleniumBot.StepResults | asylum_bot_selenium.py:83-233 | The four step results in the order the check runs them. With no driver held, a failing launch fails the province step. The province step passes only if the province `select` offers the province and the service page is reached. The user-data step passes only if the country `select` offers the nationality. |
| SeleniumBot.ChosenRadio | asylum_bot_selenium.py:129-149 | Clicks at most one radio per page: the first radio whose parent text, upper-cased, contains the marker, or none. |
| SeleniumBot.AutoSelect | asylum_bot_selenium.py:319-362 | Booking is submitted exactly when a date radio, a continue button and a confirm button exist. The date is the first date radio. Email and phone are filled exactly when their fields exist. |
| SeleniumBot.ContactFieldsOptional | asylum_bot_selenium.py:337-354 | A contact page without email or phone fields still submits. |
| SeleniumBot.CheckProvince | asylum_bot_selenium.py:364-403 | A driver is launched iff none was held. `close_driver` runs on every exit (`finally`): the driver is gone afterwards unless one was held and its `quit()` raised, in which case `self.driver` is kept. The progress is the step chain's run. The result is a finding iff all steps pass and the availability page is open. A booking is tried iff there is a finding. A finding carries the province, the dates, the office and the booking outcome. An asylum radio is clicked only after the province step passed and the police page showed a radio and `Aceptar`, since the wait or `find_element` raises first otherwise; it is then the first radio whose parent text mentions `ASILO`. |
| SeleniumBot.LaterPagesUnread | asylum_bot_selenium.py:369-371 | When province selection fails, no later page affects the outcome, and only the province step appears in the trace. |
| SeleniumBot.Checks | asylum_bot_selenium.py:412-430 | The checks of a cycle, in province order. The first starts with the bot's driver state, and each later one with the state the check before it left behind. |
| SeleniumBot.FreshDriverPerProvince | asylum_bot_selenium.py:73-81 | A later province launches its own driver iff the previous check held none or quit it cleanly. After a `quit()` that raised, the kept driver is reused. |
| SeleniumBot.CleanQuitsRelaunch | asylum_bot_selenium.py:402-403 | When every `quit()` succeeds, the first province uses the bot's driver, every later province starts a fresh one, and no check leaves a driver behind. |
| SeleniumBot.ChecksSound | asylum_bot_selenium.py:388-395 | Every finding of a cycle names its province and comes from an open availability page. |
| SeleniumBot.RunSingleCheck | asylum_bot_selenium.py:405-430 | One pause per province, one notice per finding, and every notice names a configured province whose page was open. |
| PlaywrightBot.Query | asylum_bot.py:113-135 | `<tag>[name="n"]` finds an element with that tag and name exactly when the page has one. |
| PlaywrightBot.StepResults | asylum_bot.py:113-224 | The four step results in the order the check runs them. The province step passes only if the province `select` offers the province and the URL ends with the service page's path. The service step passes only if both service pages show a radio whose value names the service. |
| PlaywrightBot.ValueRadio | asylum_bot.py:146-156 | `.first` of `input[type="radio"][value*=marker]`: the first radio whose value contains the marker, or none. |
| PlaywrightBot.RadioChoiceDiffers | asylum_bot.py:146-156 | A radio whose value names the service but whose label does not is chosen here and not by the Selenium bot. |
| PlaywrightBot.QuerySelector | asylum_bot.py:298 | `query_selector` raises iff some selector of the list is invalid. Otherwise it returns the first element in document order that matches one of them, or none. |
| PlaywrightBot.OfficeFromQuery | asylum_bot.py:296-302 | The office is `''` when the query raises (the bare `except: pass`) or finds nothing. With a valid list it is the text of the first matching element. |
| PlaywrightBot.OfficeSelectorsValidity | asylum_bot.py:298 | `.oficina` and `.office` are valid class selectors. `[contains(text(), "Oficina")]` is not a selector: inside the brackets stands the function token `contains(` where an attribute name must be an identifier. |
| PlaywrightBot.OfficeListValidity | asylum_bot.py:298 | The query over the whole list raises, and the query over its first two selectors does not. |
| PlaywrightBot.OfficeAsWritten | asylum_bot.py:296-302 | The office extractor as written yields `''` on every page, because its query always raises. |
| PlaywrightBot.ValidPrefixIsOfficeText | asylum_bot.py:298 | With the invalid selector dropped, the query reads the office exactly as the Selenium bot does: the first `.oficina`/`.office` element's text. |
| PlaywrightBot.OfficeIntended | asylum_bot.py:296-302 | The corrected extractor: the text of the first `.oficina`/`.office` element or of an element mentioning "Oficina", or `''`. |
| PlaywrightBot.OfficeSelectorDiscrepancy | asylum_bot.py:298-301 | On a page whose first element is an office label, the written extractor reports no office and the intended one reports its text. |
| PlaywrightBot.OfficeAgreesWhenAbsent | asylum_bot.py:296-301 | Without office elements the two extractors agree. |
| PlaywrightBot.AutoSelect | asylum_bot.py:310-346 | Booking is submitted exactly when a date radio, a continue button, an email field, a phone field and a confirm button all exist. A missing contact field stops the booking. |
| PlaywrightBot.ContactFieldsRequired | asylum_bot.py:328-339 | With no email field this bot gives up the booking where the Selenium bot submits it. |
| PlaywrightBot.CheckProvince | asylum_bot.py:348-394 | `close()` is called on the page iff it was created, and the check raises iff that `close()` raises, since the `finally` is outside the `except`. The page is created iff a browser context exists or can be launched, and it is created iff a browser context exists or can be launched. Steps run only after navigation succeeds, in the chain's order. A finding requires all steps to pass and an open page. A finding carries the province, the dates, the office read by the given extractor, and the booking outcome. The asylum radio is checked only after the police radio was checked and `Aceptar` exists, since `check()` or the click raises first otherwise; it is then the first radio whose value contains `ASILO`. |
| PlaywrightBot.OfficeAsReported | asylum_bot.py:376-385 | With the extractor as written, the check finds and books exactly as with the corrected one, but every finding's office is `''`. With the corrected extractor the finding carries the office element's text. |
| PlaywrightBot.FailedCloseIsRaised | asylum_bot.py:392-421 | A province whose page was created but whose `close()` raises reaches the loop as an exception, whatever the check found; `Cycle.FailureIsIsolated` then says it adds nothing and hides no later province. |
| PlaywrightBot.FailedCloseLosesFinding | asylum_bot.py:392-421 | When the page fails to close, the loop's `except` only logs: nothing is recorded or notified for that province, even when a booking was submitted. |
| PlaywrightBot.NavigationPrecedesSteps | asylum_bot.py:354-361 | A failed navigation ends the check before the province step, and `close()` is still called on the page. |
| PlaywrightBot.Checks | asylum_bot.py:406-409 | With the browser up, every province is checked in order against the shared context. |
| PlaywrightBot.ChecksSound | asylum_bot.py:378-385 | Every finding names its province and comes from an open availability page. |
| PlaywrightBot.RunSingleCheck | asylum_bot.py:396-432 | The browser is launched only if absent. If that launch raises, the outer `except` ends the cycle: no province is checked, nothing is sent and no pause is taken. Otherwise there is one pause per province and one notice per finding that reached the loop (a check whose `close()` raised reaches it as an exception), and every notice names a configured province whose page was open. |
| Notifier.Compose | telegram_notifier.py:61-88 | At most 5 dates are shown: a prefix of `dates` in order. The hidden count is the rest, and is positive only when 5 are shown. There is no dates section iff dates are missing or empty. The office is shown iff present and non-empty. The booking line follows the truthiness of `booking_attempted`. |
| Notifier.FormatAppointmentMessage | telegram_notifier.py:57-93 | The message names the province and ends with the portal link. Its lines read back through RenderParses, and its booking line is fixed by BookingLineIff. |
| Notifier.RenderParses | telegram_notifier.py:57-93 | Reading the rendered message back yields exactly the province, timestamp, shown dates, hidden count, office and booking flag it was built from. |
| Notifier.MoreLineParses | telegram_notifier.py:71-72 | The "... and N more" line gives back N. |
| Notifier.DatesBlockParses | telegram_notifier.py:67-73 | The dates section reads back as its dates and hidden count, leaving the rest of the message untouched. |
| Notifier.BookingLineIff | telegram_notifier.py:85-88 | The message has the auto-booking line iff a booking was attempted, and the manual-booking line otherwise. |
| Notifier.MessageShape | telegram_notifier.py:62-90 | The message contains the province name and ends with the portal link. If `booking_attempted` is truthy it contains "Auto-booking attempted!", and otherwise it contains "Manual booking required". At the line level this is an iff: see BookingLineIff. |
| Notifier.ReportRoundTrip | telegram_notifier.py:98-116 | A report is a fixed header, the timestamp line and the marked text; a one-line timestamp and the text read back unchanged. |
| Notifier.ReportHeaderDecides | telegram_notifier.py:98-116 | A report starts with its own header, and a report whose header starts with a different character is never read as one of the other kind. |
| Notifier.ErrorMessage | telegram_notifier.py:98-103 | The error text starts with the error header and ends with the marked error message. |
| Notifier.ErrorMessageReads | telegram_notifier.py:98-103 | An error message starts with its header, reads back as its timestamp and message, and never reads as a status message. |
| Notifier.StatusMessage | telegram_notifier.py:111-116 | The status text starts with the status header and ends with the marked status. |
| Notifier.StatusMessageReads | telegram_notifier.py:111-116 | A status message starts with its header, reads back as its timestamp and status, and never reads as an error message. |
| Text.Contains | asylum_bot_requests.py:188 | Python's `p in s` holds exactly when `p` occurs in `s` at some offset. |
| Text.TrimRemovesPadding | asylum_bot_requests.py:157 | `strip()` removes exactly the whitespace around a word that has none at its ends. |
| Text.TrimIsSlice | asylum_bot_requests.py:157 | `strip()` returns a slice of its input, and only whitespace lies outside that slice. |
| Text.LowerPreservesOccurrence | asylum_bot_selenium.py:255 | A phrase found in the page is still found once both sides are lowered. |

## Left out

- Transports: the aiohttp session, WebDriver, Playwright and BeautifulSoup are foreign libraries. They are replaced by scripted outcomes and pages of element records, and HTML parsing is not modelled.
- Waits and visibility: the WebDriver and Playwright waits and their timeouts, element visibility, and `networkidle` are folded into each page's presence or absence in the session record.
- Launches: a browser or driver launch is modelled as one success-or-failure bit.
- Telegram delivery: `send_message`, and whether sending succeeds, is a network call; only the message texts are modelled.
- Scheduling: `asyncio.sleep`/`time.sleep`, the monitoring loops and the 12-cycle status ping are not performed. The delays are returned as numbers.
- `consecutive_failures` bookkeeping (`asylum_bot_requests.py:290-301`): it reads a logging handler's internals and has no contract of its own.
- The formatter's `except` branch (`telegram_notifier.py:94-96`) is unreachable in the model, since string assembly cannot fail there. The error record of `extract_appointment_details` is left out for the same reason: its `try` blocks swallow every failure.
- Text.Lower: maps only ASCII letters. Python's `lower()`/`upper()` also map non-ASCII letters, some of them to ASCII ones (`'ı'.upper()` is `'I'`, `'ſ'.upper()` is `'S'`, `'ﬁ'.upper()` is `'FI'`); the model leaves every non-ASCII character unmapped. The compared phrases and markers contain no cased non-ASCII letters (`√` and `°` are caseless), so only page text with such letters can be judged differently.
- The mis-encoded province names hard-coded in the requests bot are not reproduced; the province is a parameter. The fifth negative phrase of that bot is kept as spelled there.
- Personal data: the user's identity, contact details and the formatter's user block are a `UserProfile` parameter whose contents are never inspected.
- SeleniumBot.StepResults: `select_by_visible_text` and Playwright's `select_option(label=...)` are approximated by stripped-text equality of the option.
- PlaywrightBot.StepResults: `wait_for_url('**/acInfo')` and similar globs are modelled as "the URL ends with `/acInfo`".
- PlaywrightBot.AutoSelect: `:first-of-type` is approximated by the first date radio.
- PlaywrightBot.QuerySelector: the selector list is given already split into CSS tokens, so tokenisation itself is not modelled. Only class selectors and the opening of attribute selectors are checked for validity, and only class selectors are given a matching rule; the office list needs no more.
- PlaywrightBot.OfficeIntended: an element whose whole text mentions "Oficina" is taken. `contains(text(), ...)` would test only the element's own text nodes, so an enclosing element listed before the label is picked here instead.
- SeleniumBot.CheckProvince: a driver kept after a failed `quit()` counts as held; whether its later pages load is left to the session's pages.

## Findings

| source | as written | input that shows it | evidently intended | confidence | as-written member | corrected member |
|---|---|---|---|---|---|---|
| asylum_bot.py:298 | The selector list `.oficina, .office, [contains(text(), "Oficina")]` is not valid CSS: its third entry has the function token `contains(` where an attribute name must stand (PlaywrightBot.OfficeSelectorsValidity). `query_selector` raises, the bare `except` swallows it, and `office` stays `''` on every page. The bot model takes the extractor as a parameter; PlaywrightBot.OfficeAsReported compares the two. | An availability page whose first element has class `oficina` and text "Oficina Madrid": the office is reported as `''`. | The text of the first `.oficina`/`.office` element, or of an element mentioning "Oficina". | not executed | PlaywrightBot.OfficeAsWritten (counterexample: PlaywrightBot.OfficeSelectorDiscrepancy) | PlaywrightBot.OfficeIntended |

=== FILE: availability.dfy ===
/**
 * Deciding from the final page whether appointments are open, and reading
 * the dates and office it shows. Two rules exist: the requests-based bot only
 * has the page text, the browser bots have the rendered elements.
 */
module Availability {
  import opened Wrappers
  import opened Text
  import opened Seqs
  import opened Html

  /** "No appointments" phrases of the requests-based bot, matched against the lowered page text. The fifth is spelled as in its source file. */
  const HttpNegativePhrases: seq<string> := [
    "no hay citas disponibles",
    "no hay citas libres",
    "en este momento no hay citas disponibles",
    "no quedan citas libres",
    "todas las citas est√°n ocupadas"]

  /** Phrases the requests-based bot takes as a sign of open appointments. */
  const HttpPositivePhrases: seq<string> := [
    "citas disponibles",
    "citas libres",
    "seleccione una fecha",
    "calendario",
    "fecha disponible"]

  /** "No appointments" phrases of the browser bots, matched with both sides lowered. */
  const RenderedNegativePhrases: seq<string> := [
    "No hay citas disponibles",
    "no hay citas libres",
    "En este momento no hay citas disponibles",
    "No quedan citas libres"]

  /** Some phrase of the list occurs in `text`: the `for indicator in ...: if indicator in text` loops. */
  function MentionsAny(text: string, phrases: seq<string>): (r: bool)
    ensures r <==> exists i :: 0 <= i < |phrases| && Occurs(text, phrases[i])
  {
    if phrases == [] then false
    else
      assert forall i :: 1 <= i < |phrases| ==> phrases[1..][i - 1] == phrases[i];
      Contains(text, phrases[0]) || MentionsAny(text, phrases[1..])
  }

  // ---- requests-based rule -------------------------------------------------

  /** The record the requests-based bot returns when the page looks open. */
  datatype HttpFinding = HttpFinding(
    province: string,
    timestamp: string,
    pageUrl: string,
    foundVia: string,
    status: string,
    calendarFound: bool,
    dateSelectionAvailable: bool)

  const FoundVia: string := "Async HTTP requests with retry logic"
  const DetectedStatus: string := "appointments_detected"

  /** `<table class="calendario">` or `<table class="calendar">`. */
  predicate IsCalendarTable(e: Element) {
    e.tag == "table" && ("calendario" in e.classes || "calendar" in e.classes)
  }

  /** An `input` or `select` whose name, lowered, contains `fecha`. */
  predicate IsDateField(e: Element) {
    (e.tag == "input" || e.tag == "select") && e.name.Some? && Contains(Lower(e.name.value), "fecha")
  }

  /** The three-tier text rule applied to the service page reached after the province post. */
  function ClassifyServicePage(page: Page, province: string, timestamp: string): (r: Option<HttpFinding>)
    ensures MentionsAny(Lower(page.content), HttpNegativePhrases) ==> r.None?
    ensures !MentionsAny(Lower(page.content), HttpNegativePhrases) ==>
              (r.Some? <==> exists i :: 0 <= i < |HttpPositivePhrases| && Occurs(Lower(page.content), HttpPositivePhrases[i]))
    ensures r.Some? ==> r.value.province == province && r.value.pageUrl == page.url
                        && r.value.status == DetectedStatus && r.value.timestamp == timestamp
    ensures r.Some? ==> (r.value.calendarFound <==> exists i :: 0 <= i < |page.elements| && IsCalendarTable(page.elements[i]))
    ensures r.Some? ==> (r.value.dateSelectionAvailable <==> exists i :: 0 <= i < |page.elements| && IsDateField(page.elements[i]))
  {
    var text := Lower(page.content);
    if MentionsAny(text, HttpNegativePhrases) then None
    else if MentionsAny(text, HttpPositivePhrases) then
      Some(HttpFinding(province, timestamp, page.url, FoundVia, DetectedStatus,
                       Any(page.elements, IsCalendarTable), Any(page.elements, IsDateField)))
    else None
  }

  /**
   * A page saying "no hay citas disponibles" also contains the positive
   * phrase "citas disponibles", and is still classified as closed.
   */
  lemma NegativeOverridesPositive(page: Page, province: string, timestamp: string)
    requires Contains(Lower(page.content), "no hay citas disponibles")
    ensures Contains(Lower(page.content), HttpPositivePhrases[0])
    ensures ClassifyServicePage(page, province, timestamp).None?
  {
    var text := Lower(page.content);
    assert OccursAt("no hay citas disponibles", "citas disponibles", 7);
    ContainsTransitive(text, "no hay citas disponibles", "citas disponibles");
    assert Occurs(text, HttpNegativePhrases[0]);
  }

  // ---- rendered-page rule --------------------------------------------------

  /** The four calendar selectors: `table.calendario`, `.calendar`, `input[type="radio"][name*="fecha"]`, `select[name*="fecha"]`. */
  predicate IsCalendarMarkup(e: Element) {
    || (e.tag == "table" && "calendario" in e.classes)
    || "calendar" in e.classes
    || IsDateRadio(e)
    || (e.tag == "select" && NameHas(e, "fecha"))
  }

  /** `input[type="radio"][name*="fecha"]`: one selectable appointment slot. */
  predicate IsDateRadio(e: Element) {
    IsRadio(e) && NameHas(e, "fecha")
  }

  /** `.oficina, .office`. */
  predicate IsOfficeLabel(e: Element) {
    "oficina" in e.classes || "office" in e.classes
  }

  /** Some lowered negative phrase occurs in the lowered page markup. */
  predicate SaysNoAppointments(page: Page) {
    MentionsAny(Lower(page.content), LowerAll(RenderedNegativePhrases))
  }

  function LowerAll(phrases: seq<string>): (r: seq<string>)
    ensures |r| == |phrases|
    ensures forall i :: 0 <= i < |phrases| ==> r[i] == Lower(phrases[i])
  {
    seq(|phrases|, i requires 0 <= i < |phrases| => Lower(phrases[i]))
  }

  /** The rendered rule: no negative phrase, and some calendar selector matches an element. */
  predicate RenderedOpen(page: Page) {
    !SaysNoAppointments(page) && Any(page.elements, IsCalendarMarkup)
  }

  /** What one element adds to the dates: its `value` when it is a date radio with a non-empty one. */
  function DateToken(e: Element): seq<string> {
    if IsDateRadio(e) && Attr(e.value) != "" then [Attr(e.value)] else []
  }

  /** The non-empty `value`s of the date radios, in document order. */
  function DateTokens(es: seq<Element>): (r: seq<string>)
    ensures |r| <= |es|
    ensures forall k :: 0 <= k < |r| ==> r[k] != ""
  {
    if es == [] then [] else DateToken(es[0]) + DateTokens(es[1..])
  }

  /** `d` is the `value` of some date radio of the page. */
  ghost predicate IsDateValueOf(es: seq<Element>, d: string) {
    exists i :: 0 <= i < |es| && IsDateRadio(es[i]) && Attr(es[i].value) == d
  }

  /** Every listed date is the `value` of some date radio of the page. */
  lemma {:induction false} DateTokensSound(es: seq<Element>)
    ensures forall k :: 0 <= k < |DateTokens(es)| ==> IsDateValueOf(es, DateTokens(es)[k])
    decreases |es|
  {
    if es == [] {
      assert DateTokens(es) == [];
    } else {
      var head := DateToken(es[0]);
      var tail := DateTokens(es[1..]);
      var r := DateTokens(es);
      DateTokensSound(es[1..]);
      assert r == head + tail;
      forall k | 0 <= k < |r|
        ensures IsDateValueOf(es, r[k])
      {
        if k < |head| {
          assert IsDateRadio(es[0]) && Attr(es[0].value) == r[k];
        } else {
          assert r[k] == tail[k - |head|];
          assert IsDateValueOf(es[1..], tail[k - |head|]);
          var i :| 0 <= i < |es[1..]| && IsDateRadio(es[1..][i]) && Attr(es[1..][i].value) == tail[k - |head|];
          assert es[i + 1] == es[1..][i];
        }
      }
    }
  }

  /** Dates are collected in document order: a page split in two gives the two lists joined. */
  lemma {:induction false} DateTokensAppend(a: seq<Element>, b: seq<Element>)
    ensures DateTokens(a + b) == DateTokens(a) + DateTokens(b)
    decreases |a|
  {
    if a == [] {
      assert a + b == b;
    } else {
      assert (a + b)[1..] == a[1..] + b;
      DateTokensAppend(a[1..], b);
    }
  }

  /** Every date radio with a non-empty value is listed. */
  lemma {:induction false} DateTokensComplete(es: seq<Element>, i: nat)
    requires i < |es| && IsDateRadio(es[i]) && Attr(es[i].value) != ""
    ensures Attr(es[i].value) in DateTokens(es)
    decreases |es|
  {
    if i > 0 {
      assert es[1..][i - 1] == es[i];
      DateTokensComplete(es[1..], i - 1);
    }
  }

  /** The text of the first office element, or the empty string when there is none. */
  function OfficeText(es: seq<Element>): (r: string)
    ensures (forall i :: 0 <= i < |es| ==> !IsOfficeLabel(es[i])) ==> r == ""
    ensures forall i :: 0 <= i < |es| && IsOfficeLabel(es[i]) && (forall j :: 0 <= j < i ==> !IsOfficeLabel(es[j]))
              ==> r == es[i].text
  {
    match FirstIndex(es, IsOfficeLabel)
    case None => ""
    case Some(i) => es[i].text
  }
}

=== FILE: browser.dfy ===
/**
 * What the two browser-driven bots share: the record a finding produces, the
 * rendered-page availability check, the elements auto-booking looks for, and
 * how a finding reads to the notifier.
 */
module Browser {
  import opened Wrappers
  import opened Text
  import opened Seqs
  import opened Html
  import opened Availability
  import Notifier
  import Cycle

  /** `extract_appointment_details()`: the date tokens and the office text. */
  datatype Details = Details(dates: seq<string>, office: string)

  /** What `check_availability` returns: whether the page is open, and its details when it is. */
  datatype Verdict = Verdict(open: bool, details: Option<Details>)

  /** The finding a province check returns. */
  datatype Appointment = Appointment(
    province: string,
    timestamp: string,
    dates: seq<string>,
    office: string,
    bookingAttempted: bool)

  /**
   * `check_appointment_availability()` on the page reached after the user
   * data is submitted, with `office` the office extractor of the variant.
   */
  function CheckAvailability(page: Page, office: seq<Element> -> string): (v: Verdict)
    ensures v.open <==> v.details.Some?
    ensures SaysNoAppointments(page) ==> v == Verdict(false, None)
    ensures !SaysNoAppointments(page) ==>
              (v.open <==> exists i :: 0 <= i < |page.elements| && IsCalendarMarkup(page.elements[i]))
    ensures v.open ==> v.details.value == Details(DateTokens(page.elements), office(page.elements))
  {
    if SaysNoAppointments(page) then Verdict(false, None)
    else if Any(page.elements, IsCalendarMarkup) then
      Verdict(true, Some(Details(DateTokens(page.elements), office(page.elements))))
    else Verdict(false, None)
  }

  /** The availability verdict depends on the rendered rule only, whatever the office extractor. */
  lemma VerdictIsRenderedRule(page: Page, office: seq<Element> -> string)
    ensures CheckAvailability(page, office).open <==> RenderedOpen(page)
  {
  }

  /** A negative phrase in any letter case closes the page, whatever calendar markup it also holds. */
  lemma NegativePhraseWins(page: Page, office: seq<Element> -> string, i: nat)
    requires i < |RenderedNegativePhrases|
    requires Contains(Lower(page.content), Lower(RenderedNegativePhrases[i]))
    ensures CheckAvailability(page, office) == Verdict(false, None)
  {
    assert LowerAll(RenderedNegativePhrases)[i] == Lower(RenderedNegativePhrases[i]);
    assert Occurs(Lower(page.content), LowerAll(RenderedNegativePhrases)[i]);
  }

  // ---- auto-booking selectors ---------------------------------------------

  /** `input[type="submit"][value*="Siguiente"], input[type="submit"][value*="Continuar"]`. */
  predicate IsContinueButton(e: Element) {
    IsButtonWith(e, "Siguiente") || IsButtonWith(e, "Continuar")
  }

  /** `input[name*="email"], input[type="email"]`. */
  predicate IsEmailField(e: Element) {
    e.tag == "input" && (NameHas(e, "email") || e.kind == Some("email"))
  }

  /** `input[name*="telefono"], input[name*="phone"]`. */
  predicate IsPhoneField(e: Element) {
    e.tag == "input" && (NameHas(e, "telefono") || NameHas(e, "phone"))
  }

  /** `input[type="submit"][value*="Enviar"], input[type="submit"][value*="Confirmar"]`. */
  predicate IsConfirmButton(e: Element) {
    IsButtonWith(e, "Enviar") || IsButtonWith(e, "Confirmar")
  }

  /**
   * What auto-booking did: the date radio and continue button it clicked on
   * the availability page, the contact fields it filled on the next page, and
   * whether it submitted the booking.
   */
  datatype Booking = Booking(
    date: Option<nat>,
    next: Option<nat>,
    email: Option<nat>,
    phone: Option<nat>,
    submitted: bool)

  /** The keys the notifier reads: `dates`, `office` and `booking_attempted` are always present. */
  function NoticeView(a: Appointment): Notifier.NoticeInfo {
    Notifier.NoticeInfo(Some(a.dates), Some(a.office), Some(a.bookingAttempted))
  }

  /**
   * How a browser finding is announced: every date is either listed or
   * counted, the office line appears iff an office text was read, and the
   * booking line follows the auto-booking outcome.
   */
  lemma BrowserNotice(a: Appointment, timestamp: string)
    ensures Notifier.Compose(a.province, NoticeView(a), timestamp).shown
            == a.dates[..|Notifier.Compose(a.province, NoticeView(a), timestamp).shown|]
    ensures |Notifier.Compose(a.province, NoticeView(a), timestamp).shown|
            + Notifier.Compose(a.province, NoticeView(a), timestamp).hidden == |a.dates|
    ensures Notifier.Compose(a.province, NoticeView(a), timestamp).office.Some? <==> a.office != ""
    ensures Notifier.Compose(a.province, NoticeView(a), timestamp).booked <==> a.bookingAttempted
  {
  }

  // ---- the cycle -----------------------------------------------------------

  /** A finding or nothing, for a check whose `return` reached the loop. */
  function AsOutcome(result: Option<Appointment>): Cycle.CheckOutcome<Appointment> {
    match result
    case Some(a) => Cycle.Found(a)
    case None => Cycle.NothingFound
  }

  /** Each province paired with the outcome of its check. */
  function Outcomes(visited: seq<(string, Page)>, results: seq<Cycle.CheckOutcome<Appointment>>): (r: seq<(string, Cycle.CheckOutcome<Appointment>)>)
    requires |results| == |visited|
    ensures |r| == |visited|
    ensures forall i :: 0 <= i < |r| ==> r[i] == (visited[i].0, results[i])
  {
    seq(|visited|, i requires 0 <= i < |visited| => (visited[i].0, results[i]))
  }

  /** Each province with the page its availability check reads, `availability` picking it from the province's pages. */
  function Visited<S>(provinces: seq<(string, S)>, availability: S -> Page): (r: seq<(string, Page)>)
    ensures |r| == |provinces|
    ensures forall i :: 0 <= i < |r| ==> r[i] == (provinces[i].0, availability(provinces[i].1))
  {
    seq(|provinces|, i requires 0 <= i < |provinces| => (provinces[i].0, availability(provinces[i].1)))
  }

  /** How each check ended for the loop, `outcome` reading it from the variant's check record. */
  function Results<C>(checks: seq<C>, outcome: C -> Cycle.CheckOutcome<Appointment>): (r: seq<Cycle.CheckOutcome<Appointment>>)
    ensures |r| == |checks|
    ensures forall i :: 0 <= i < |r| ==> r[i] == outcome(checks[i])
  {
    seq(|checks|, i requires 0 <= i < |checks| => outcome(checks[i]))
  }

  /**
   * `visited` pairs each province with its availability page; each finding
   * names its province and comes from an open page.
   */
  predicate FindingsSound(visited: seq<(string, Page)>, results: seq<Cycle.CheckOutcome<Appointment>>) {
    && |results| == |visited|
    && forall i :: 0 <= i < |results| && results[i].Found? ==>
         results[i].info.province == visited[i].0 && RenderedOpen(visited[i].1)
  }

  /** Some visit to `province` found its availability page open. */
  predicate OpenVisit(visited: seq<(string, Page)>, province: string) {
    exists j :: 0 <= j < |visited| && visited[j].0 == province && RenderedOpen(visited[j].1)
  }

  /** Every notice names its province, and that province's availability page was open. */
  predicate NoticesSound(visited: seq<(string, Page)>, notices: seq<(string, Appointment)>) {
    && (forall i :: 0 <= i < |notices| ==> notices[i].1.province == notices[i].0)
    && (forall i :: 0 <= i < |notices| ==> OpenVisit(visited, notices[i].0))
  }

  lemma NoticesComeFromOpenPages(visited: seq<(string, Page)>, results: seq<Cycle.CheckOutcome<Appointment>>)
    requires FindingsSound(visited, results)
    ensures NoticesSound(visited, Cycle.RunCycle(Outcomes(visited, results)).notices)
  {
    var outs := Outcomes(visited, results);
    var rep := Cycle.RunCycle(outs);
    forall i | 0 <= i < |rep.notices|
      ensures rep.notices[i].1.province == rep.notices[i].0
      ensures OpenVisit(visited, rep.notices[i].0)
    {
      var j :| 0 <= j < |outs| && outs[j] == (rep.notices[i].0, Cycle.Found(rep.notices[i].1));
      assert outs[j] == (visited[j].0, results[j]);
      assert results[j] == Cycle.Found(rep.notices[i].1);
      assert results[j].info.province == visited[j].0 && RenderedOpen(visited[j].1);
      assert visited[j].0 == rep.notices[i].0;
    }
    assert NoticesSound(visited, rep.notices);
  }
}

=== FILE: cycle.dfy ===
/**
 * One monitoring cycle (`run_single_check`): every configured province is
 * checked in order, each finding is recorded and notified, and a failing
 * province does not stop the ones after it.
 */
module Cycle {

  /** How one province check ended: a finding, nothing, or an exception caught by the loop. */
  datatype CheckOutcome<R> = Found(info: R) | NothingFound | Raised

  /**
   * What the cycle produces: the findings in order, the `(province, finding)`
   * notifications sent, and the pause after each province.
   */
  datatype Report<R> = Report(found: seq<R>, notices: seq<(string, R)>, pauses: seq<nat>)

  /** Seconds slept after each province. */
  const InterProvincePause: nat := 2

  /** Number of provinces whose check found something. */
  function FoundCount<R>(checks: seq<(string, CheckOutcome<R>)>): nat {
    if checks == [] then 0
    else FoundCount(checks[..|checks| - 1]) + (if checks[|checks| - 1].1.Found? then 1 else 0)
  }

  /** The loop over `checks`, the outcome of each province paired with its name, in configured order. */
  function RunCycle<R>(checks: seq<(string, CheckOutcome<R>)>): (rep: Report<R>)
    ensures |rep.found| == |rep.notices| == FoundCount(checks)
    ensures forall i :: 0 <= i < |rep.found| ==> rep.notices[i].1 == rep.found[i]
    ensures forall i :: 0 <= i < |rep.notices| ==>
              exists j :: 0 <= j < |checks| && checks[j] == (rep.notices[i].0, Found(rep.notices[i].1))
    ensures |rep.pauses| == |checks|
    ensures forall k :: 0 <= k < |rep.pauses| ==> rep.pauses[k] == InterProvincePause
  {
    if checks == [] then Report([], [], [])
    else
      var init := checks[..|checks| - 1];
      var prev := RunCycle(init);
      assert forall j :: 0 <= j < |init| ==> init[j] == checks[j];
      var (province, outcome) := checks[|checks| - 1];
      match outcome
      case Found(info) =>
        Report(prev.found + [info], prev.notices + [(province, info)], prev.pauses + [InterProvincePause])
      case _ =>
        Report(prev.found, prev.notices, prev.pauses + [InterProvincePause])
  }

  /** Running two groups of provinces back to back is running each and joining the reports. */
  lemma {:induction false} RunCycleAppend<R>(a: seq<(string, CheckOutcome<R>)>, b: seq<(string, CheckOutcome<R>)>)
    ensures RunCycle(a + b).found == RunCycle(a).found + RunCycle(b).found
    ensures RunCycle(a + b).notices == RunCycle(a).notices + RunCycle(b).notices
    ensures RunCycle(a + b).pauses == RunCycle(a).pauses + RunCycle(b).pauses
    decreases |b|
  {
    if b == [] {
      assert a + b == a;
    } else {
      var b0 := b[..|b| - 1];
      assert (a + b)[..|a + b| - 1] == a + b0;
      assert (a + b)[|a + b| - 1] == b[|b| - 1];
      RunCycleAppend(a, b0);
    }
  }

  /** A province whose check raised contributes nothing and hides nothing that follows it. */
  lemma FailureIsIsolated<R>(before: seq<(string, CheckOutcome<R>)>, province: string, after: seq<(string, CheckOutcome<R>)>)
    ensures RunCycle(before + [(province, Raised)] + after).found == RunCycle(before).found + RunCycle(after).found
    ensures RunCycle(before + [(province, Raised)] + after).notices == RunCycle(before).notices + RunCycle(after).notices
  {
    var one: seq<(string, CheckOutcome<R>)> := [(province, Raised)];
    assert one[..0] == [];
    RunCycleAppend(before, one);
    RunCycleAppend(before + one, after);
  }

  /** One province on its own: a finding is recorded and notified under that province's name. */
  lemma SingleProvince<R>(province: string, outcome: CheckOutcome<R>)
    ensures outcome.Found? ==> RunCycle([(province, outcome)]).notices == [(province, outcome.info)]
    ensures !outcome.Found? ==> RunCycle([(province, outcome)]).notices == []
  {
    assert [(province, outcome)][..0] == [];
  }
}

=== FILE: forms.dfy ===
/**
 * Reading the province form of the portal's first page (requests-based bot):
 * where it posts to, which fields it sends, and which option value stands for
 * the wanted province.
 */
module FormExtract {
  import opened Wrappers
  import opened Text
  import opened Seqs
  import opened Html
  import Portal

  /** The stripped text of every option, in order. */
  function Captions(options: seq<Choice>): (r: seq<string>)
    ensures |r| == |options|
    ensures forall i :: 0 <= i < |options| ==> r[i] == Trim(options[i].text)
  {
    seq(|options|, i requires 0 <= i < |options| => Trim(options[i].text))
  }

  /** Index of the first caption at or after `from` equal to `province`. */
  function CaptionIndex(captions: seq<string>, province: string, from: nat): (r: Option<nat>)
    requires from <= |captions|
    ensures r.Some? ==> from <= r.value < |captions| && captions[r.value] == province
    ensures r.Some? ==> forall j :: from <= j < r.value ==> captions[j] != province
    ensures r.None? <==> forall j :: from <= j < |captions| ==> captions[j] != province
    decreases |captions| - from
  {
    if from == |captions| then None
    else if captions[from] == province then Some(from)
    else CaptionIndex(captions, province, from + 1)
  }

  /** Index of the first option whose stripped text is `province`. */
  function LabelIndex(options: seq<Choice>, province: string): (r: Option<nat>)
    ensures r.Some? ==> r.value < |options| && LabelMatches(options[r.value], province)
    ensures r.Some? ==> forall j :: 0 <= j < r.value ==> !LabelMatches(options[j], province)
    ensures r.None? <==> forall j :: 0 <= j < |options| ==> !LabelMatches(options[j], province)
  {
    CaptionIndex(Captions(options), province, 0)
  }

  /** The value of the first option whose stripped text is `province`; `None` if no option has it. */
  function ResolveLabel(options: seq<Choice>, province: string): (r: Option<string>)
    ensures r.None? <==> forall i :: 0 <= i < |options| ==> !LabelMatches(options[i], province)
    ensures r.Some? ==> LabelIndex(options, province).Some?
                        && r.value == Attr(options[LabelIndex(options, province).value].value)
  {
    match LabelIndex(options, province)
    case None => None
    case Some(i) => Some(Attr(options[i].value))
  }

  /** The first option labelled with the province decides the value, whatever the options after it say. */
  lemma FirstMatchWins(options: seq<Choice>, province: string, i: nat)
    requires i < |options| && LabelMatches(options[i], province)
    requires forall j :: 0 <= j < i ==> !LabelMatches(options[j], province)
    ensures ResolveLabel(options, province) == Some(Attr(options[i].value))
  {
    var k := LabelIndex(options, province).value;
    assert !(k < i) && !(i < k);
  }

  /** The `action` attribute, made absolute when it is a root-relative path. */
  function ActionUrl(form: Form): string {
    var action := Attr(form.action);
    if StartsWith(action, "/") then Portal.Origin + action else action
  }

  /** Where the province form is posted: the resolved action, or the start page when it is empty. */
  function SubmitTarget(form: Form): (url: string)
    ensures url != ""
  {
    var action := ActionUrl(form);
    if action == "" then Portal.BaseUrl else action
  }

  /** The three ways the target is chosen. */
  lemma SubmitTargetCases(form: Form)
    ensures StartsWith(Attr(form.action), "/") ==>
              SubmitTarget(form) == Portal.Origin + Attr(form.action)
              && StartsWith(SubmitTarget(form), Portal.Origin + "/")
    ensures Attr(form.action) == "" ==> SubmitTarget(form) == Portal.BaseUrl
    ensures Attr(form.action) != "" && !StartsWith(Attr(form.action), "/") ==>
              SubmitTarget(form) == Attr(form.action)
  {
    var a := Attr(form.action);
    if StartsWith(a, "/") {
      assert (Portal.Origin + a)[..|Portal.Origin + "/"|] == Portal.Origin + "/";
    }
  }

  /**
   * The entry one element adds to the posted data, if any: only named
   * `input` and `select` elements take part, the province `select` gives the
   * value of the matching option, submit inputs are skipped, and every other
   * one gives its `value` attribute.
   */
  function Contribution(e: Element, province: string): Option<(string, string)> {
    if e.tag != "input" && e.tag != "select" then None
    else if e.name.None? || e.name.value == "" then None
    else if e.tag == "select" && e.name.value == Portal.ProvinceField then
      match ResolveLabel(e.options, province)
      case None => None
      case Some(v) => Some((e.name.value, v))
    else if e.kind == Some("hidden") then Some((e.name.value, Attr(e.value)))
    else if e.kind == Some("submit") then None
    else Some((e.name.value, Attr(e.value)))
  }

  predicate ContributesTo(e: Element, province: string, n: string) {
    Contribution(e, province).Some? && Contribution(e, province).value.0 == n
  }

  /** The `form_data` dictionary built over the form's fields in document order. */
  function FieldMap(fields: seq<Element>, province: string): (m: map<string, string>)
    ensures forall n :: n in m <==> exists i :: 0 <= i < |fields| && ContributesTo(fields[i], province, n)
    decreases |fields|
  {
    if fields == [] then map[]
    else
      var init := fields[..|fields| - 1];
      var last := fields[|fields| - 1];
      var m0 := FieldMap(init, province);
      assert forall i :: 0 <= i < |init| ==> init[i] == fields[i];
      match Contribution(last, province)
      case None => m0
      case Some(entry) => m0[entry.0 := entry.1]
  }

  /** A repeated name keeps the value of its last contributing element. */
  lemma {:induction false} FieldMapLastWins(fields: seq<Element>, province: string, i: nat)
    requires i < |fields| && Contribution(fields[i], province).Some?
    requires forall j :: i < j < |fields| ==> !ContributesTo(fields[j], province, Contribution(fields[i], province).value.0)
    ensures Contribution(fields[i], province).value.0 in FieldMap(fields, province)
    ensures FieldMap(fields, province)[Contribution(fields[i], province).value.0]
            == Contribution(fields[i], province).value.1
    decreases |fields|
  {
    if i < |fields| - 1 {
      var init := fields[..|fields| - 1];
      assert init[i] == fields[i];
      FieldMapLastWins(init, province, i);
    }
  }

  /** Submit inputs, unnamed elements and tags other than `input`/`select` never reach the posted data. */
  lemma IgnoredElements(e: Element, province: string)
    ensures e.tag == "input" && e.kind == Some("submit") ==> Contribution(e, province).None?
    ensures e.name.None? || e.name == Some("") ==> Contribution(e, province).None?
    ensures e.tag != "input" && e.tag != "select" ==> Contribution(e, province).None?
  {
  }

  /** The province `select` contributes exactly when one of its options carries the province's name. */
  lemma ProvinceSelectContribution(e: Element, province: string)
    requires e.tag == "select" && e.name == Some(Portal.ProvinceField)
    ensures Contribution(e, province).Some? <==> OffersLabel(e, province)
    ensures OffersLabel(e, province) ==>
              Contribution(e, province) == Some((Portal.ProvinceField, ResolveLabel(e.options, province).value))
  {
  }
}

=== FILE: html.dfy ===
/**
 * Abstract observations of portal pages. A parsed or rendered page is a list
 * of elements in document order; the browser and HTML-parser calls of the bot
 * become predicates over that list.
 */
module Html {
  import opened Wrappers
  import opened Text
  import opened Seqs

  /** An `<option>` of a `<select>`: its text and its `value` attribute. */
  datatype Choice = Choice(text: string, value: Option<string>)

  /**
   * One element: its tag, the `name`, `type` and `value` attributes when
   * present, its CSS classes, its text, the text of its parent element, and
   * the options it holds when it is a `<select>`.
   */
  datatype Element = Element(
    tag: string,
    name: Option<string>,
    kind: Option<string>,
    value: Option<string>,
    classes: seq<string>,
    text: string,
    parentText: string,
    options: seq<Choice>)

  /** A `<form>`: its `action` attribute and its descendant elements. */
  datatype Form = Form(action: Option<string>, fields: seq<Element>)

  /**
   * A page as the bot sees it: its URL after redirects, the text it searches
   * for phrases, every element in document order, and its forms.
   */
  datatype Page = Page(url: string, content: string, elements: seq<Element>, forms: seq<Form>)

  /** `tag.get(attr, '')`. */
  function Attr(o: Option<string>): string {
    o.GetOr("")
  }

  predicate Named(e: Element, n: string) {
    e.name == Some(n)
  }

  /** CSS `[name*="frag"]`. */
  predicate NameHas(e: Element, frag: string) {
    e.name.Some? && Contains(e.name.value, frag)
  }

  /** CSS `[value*="frag"]`. */
  predicate ValueHas(e: Element, frag: string) {
    e.value.Some? && Contains(e.value.value, frag)
  }

  predicate IsRadio(e: Element) {
    e.tag == "input" && e.kind == Some("radio")
  }

  /** CSS `input[type="submit"][value="caption"]`. */
  predicate IsButton(e: Element, caption: string) {
    e.tag == "input" && e.kind == Some("submit") && e.value == Some(caption)
  }

  /** CSS `input[type="submit"][value*="frag"]`. */
  predicate IsButtonWith(e: Element, frag: string) {
    e.tag == "input" && e.kind == Some("submit") && ValueHas(e, frag)
  }

  predicate HasButton(p: Page, caption: string) {
    Any(p.elements, e => IsButton(e, caption))
  }

  predicate HasRadio(p: Page) {
    Any(p.elements, IsRadio)
  }

  /** The text of an option equals `caption` once surrounding whitespace is dropped. */
  predicate LabelMatches(c: Choice, caption: string) {
    Trim(c.text) == caption
  }

  predicate OffersLabel(e: Element, caption: string) {
    Any(e.options, c => LabelMatches(c, caption))
  }
}

=== FILE: http_bot.dfy ===
/**
 * The requests-based bot (`AsylumAppointmentBotRequests`): one province check is a GET of
 * the start page and a POST of the province form, each wrapped in the retry
 * policy, followed by the text rule on the page the POST lands on. The
 * server is replaced by two scripts of outcomes, one per request.
 */
module HttpBot {
  import opened Wrappers
  import opened Text
  import opened Html
  import opened Retry
  import opened FormExtract
  import opened Availability
  import Portal
  import Cycle
  import Notifier

  /** What the server answers to each attempt of the GET and of the POST. */
  datatype HttpEnv = HttpEnv(getOutcomes: seq<Outcome<Page>>, postOutcomes: seq<Outcome<Page>>)

  /** The province form as posted: the target URL and the form data. */
  datatype Post = Post(url: string, data: map<string, string>)

  /** The result of a check, the form posted if any, every request sent, and every back-off delay slept. */
  datatype HttpCheck = HttpCheck(finding: Option<HttpFinding>, post: Option<Post>, requests: nat, delays: seq<nat>)

  /** The page the start-page GET returns, after retries. */
  function StartPage(env: HttpEnv): Option<Page> {
    match MakeRequestWithRetry(env.getOutcomes, DefaultMaxRetries).result
    case None => None
    case Some(f) => Some(f.content)
  }

  /** The province form: `soup.find('form')`, the first form of the page. */
  function ProvinceForm(env: HttpEnv): Option<Form> {
    match StartPage(env)
    case None => None
    case Some(p) => if p.forms == [] then None else Some(p.forms[0])
  }

  /** The form that is posted: only when the built data carries a `provincia` entry. */
  function PlannedPost(env: HttpEnv, province: string): Option<Post> {
    match ProvinceForm(env)
    case None => None
    case Some(form) =>
      var data := FieldMap(form.fields, province);
      if Portal.ProvinceField in data then Some(Post(SubmitTarget(form), data)) else None
  }

  /** `check_province_appointments(province)` with the clock read passed in. */
  function CheckProvince(env: HttpEnv, province: string, timestamp: string): (c: HttpCheck)
    ensures c.post == PlannedPost(env, province)
    ensures c.post.Some? ==> Portal.ProvinceField in c.post.value.data && c.post.value.url != ""
    ensures c.finding.Some? ==> c.post.Some?
    ensures c.finding.Some? ==> c.finding.value.province == province && c.finding.value.timestamp == timestamp
                                && c.finding.value.status == DetectedStatus
                                && Contains(c.finding.value.pageUrl, Portal.ServicePageMarker)
    ensures c.requests <= 2 * DefaultMaxRetries
    ensures c.post.None? ==> c.requests <= DefaultMaxRetries && c.finding.None?
    ensures forall k :: 0 <= k < |c.delays| ==> c.delays[k] <= DelayCap
  {
    var get := MakeRequestWithRetry(env.getOutcomes, DefaultMaxRetries);
    match PlannedPost(env, province)
    case None => HttpCheck(None, None, get.attempts, get.delays)
    case Some(post) =>
      var sent := MakeRequestWithRetry(env.postOutcomes, DefaultMaxRetries);
      var finding :=
        match sent.result
        case None => None
        case Some(f) =>
          if Contains(f.url, Portal.ServicePageMarker) then
            var r := ClassifyServicePage(f.content.(url := f.url), province, timestamp);
            r
          else None;
      HttpCheck(finding, Some(post), get.attempts + sent.attempts, get.delays + sent.delays)
  }

  /** The page the province POST lands on, after retries, with the URL it was redirected to. */
  function LandingPage(env: HttpEnv): Option<Page> {
    match MakeRequestWithRetry(env.postOutcomes, DefaultMaxRetries).result
    case None => None
    case Some(f) => Some(f.content.(url := f.url))
  }

  /**
   * The check finds appointments exactly when the province form is posted,
   * the POST lands on the service page, and the text rule says open.
   */
  lemma FindingIff(env: HttpEnv, province: string, timestamp: string)
    ensures CheckProvince(env, province, timestamp).finding.Some? <==>
              && PlannedPost(env, province).Some?
              && LandingPage(env).Some?
              && Contains(LandingPage(env).value.url, Portal.ServicePageMarker)
              && !MentionsAny(Lower(LandingPage(env).value.content), HttpNegativePhrases)
              && MentionsAny(Lower(LandingPage(env).value.content), HttpPositivePhrases)
  {
  }

  /** A province none of whose form fields yields a `provincia` entry is never posted and never found. */
  lemma UnofferedProvinceNotPosted(env: HttpEnv, province: string, timestamp: string)
    requires ProvinceForm(env).Some?
    requires forall i :: 0 <= i < |ProvinceForm(env).value.fields| ==>
               !ContributesTo(ProvinceForm(env).value.fields[i], province, Portal.ProvinceField)
    ensures CheckProvince(env, province, timestamp).post.None?
    ensures CheckProvince(env, province, timestamp).finding.None?
    ensures CheckProvince(env, province, timestamp).requests == MakeRequestWithRetry(env.getOutcomes, DefaultMaxRetries).attempts
  {
  }

  /**
   * When the province `select` is the only field named `provincia`, the
   * posted `provincia` is the value of the option labelled with the province.
   */
  lemma PostsResolvedProvince(env: HttpEnv, province: string, i: nat)
    requires ProvinceForm(env).Some?
    requires i < |ProvinceForm(env).value.fields|
    requires ProvinceForm(env).value.fields[i].tag == "select"
    requires ProvinceForm(env).value.fields[i].name == Some(Portal.ProvinceField)
    requires OffersLabel(ProvinceForm(env).value.fields[i], province)
    requires forall j :: i < j < |ProvinceForm(env).value.fields| ==>
               !ContributesTo(ProvinceForm(env).value.fields[j], province, Portal.ProvinceField)
    ensures PlannedPost(env, province).Some?
    ensures PlannedPost(env, province).value.data[Portal.ProvinceField]
            == ResolveLabel(ProvinceForm(env).value.fields[i].options, province).value
  {
    var fields := ProvinceForm(env).value.fields;
    ProvinceSelectContribution(fields[i], province);
    FieldMapLastWins(fields, province, i);
  }

  /** Requests and sleeps of a check: the GET's, then the POST's when the form is posted. */
  lemma CheckCost(env: HttpEnv, province: string, timestamp: string)
    ensures CheckProvince(env, province, timestamp).requests
            == MakeRequestWithRetry(env.getOutcomes, DefaultMaxRetries).attempts
               + (if PlannedPost(env, province).Some? then MakeRequestWithRetry(env.postOutcomes, DefaultMaxRetries).attempts else 0)
    ensures CheckProvince(env, province, timestamp).delays
            == MakeRequestWithRetry(env.getOutcomes, DefaultMaxRetries).delays
               + (if PlannedPost(env, province).Some? then MakeRequestWithRetry(env.postOutcomes, DefaultMaxRetries).delays else [])
  {
    if PlannedPost(env, province).None? {
      assert MakeRequestWithRetry(env.getOutcomes, DefaultMaxRetries).delays + []
          == MakeRequestWithRetry(env.getOutcomes, DefaultMaxRetries).delays;
    }
  }

  /** How a check reads to the cycle loop: a finding, or nothing (the method catches every exception). */
  function AsOutcome(c: HttpCheck): Cycle.CheckOutcome<HttpFinding> {
    match c.finding
    case Some(f) => Cycle.Found(f)
    case None => Cycle.NothingFound
  }

  /** The outcome of every province, in configured order. */
  function Outcomes(provinces: seq<(string, HttpEnv)>, timestamp: string): (r: seq<(string, Cycle.CheckOutcome<HttpFinding>)>)
    ensures |r| == |provinces|
    ensures forall i :: 0 <= i < |r| ==> r[i].0 == provinces[i].0
    ensures forall i :: 0 <= i < |r| ==>
              (r[i].1.Found? <==> CheckProvince(provinces[i].1, provinces[i].0, timestamp).finding.Some?)
    ensures forall i :: 0 <= i < |r| ==> !r[i].1.Raised?
  {
    seq(|provinces|, i requires 0 <= i < |provinces| =>
      (provinces[i].0, AsOutcome(CheckProvince(provinces[i].1, provinces[i].0, timestamp))))
  }

  /** `run_single_check()`: each province against its own server script. */
  function RunSingleCheck(provinces: seq<(string, HttpEnv)>, timestamp: string): (rep: Cycle.Report<HttpFinding>)
    ensures |rep.pauses| == |provinces|
    ensures |rep.found| == |rep.notices|
    ensures forall i :: 0 <= i < |rep.notices| ==>
              exists j :: 0 <= j < |provinces| && provinces[j].0 == rep.notices[i].0
                && CheckProvince(provinces[j].1, provinces[j].0, timestamp).finding == Some(rep.notices[i].1)
    ensures forall i :: 0 <= i < |rep.notices| ==> rep.notices[i].1.province == rep.notices[i].0
  {
    NoticesComeFromChecks(provinces, timestamp);
    Cycle.RunCycle(Outcomes(provinces, timestamp))
  }

  lemma NoticesComeFromChecks(provinces: seq<(string, HttpEnv)>, timestamp: string)
    ensures forall i :: 0 <= i < |Cycle.RunCycle(Outcomes(provinces, timestamp)).notices| ==>
              var n := Cycle.RunCycle(Outcomes(provinces, timestamp)).notices[i];
              exists j :: 0 <= j < |provinces| && provinces[j].0 == n.0
                && CheckProvince(provinces[j].1, provinces[j].0, timestamp).finding == Some(n.1)
  {
    var outs := Outcomes(provinces, timestamp);
    var rep := Cycle.RunCycle(outs);
    forall i | 0 <= i < |rep.notices|
      ensures exists j :: 0 <= j < |provinces| && provinces[j].0 == rep.notices[i].0
                && CheckProvince(provinces[j].1, provinces[j].0, timestamp).finding == Some(rep.notices[i].1)
    {
      var j :| 0 <= j < |outs| && outs[j] == (rep.notices[i].0, Cycle.Found(rep.notices[i].1));
      assert AsOutcome(CheckProvince(provinces[j].1, provinces[j].0, timestamp)) == Cycle.Found(rep.notices[i].1);
    }
  }

  /** The requests-based finding has no dates, office or booking keys: the formatter sees none of them. */
  function NoticeView(f: HttpFinding): Notifier.NoticeInfo {
    Notifier.NoticeInfo(None, None, None)
  }

  /** Its notification therefore lists no dates and no office, and asks for a manual booking. */
  lemma HttpNoticeIsManual(f: HttpFinding, timestamp: string)
    ensures Notifier.Compose(f.province, NoticeView(f), timestamp).shown == []
    ensures Notifier.Compose(f.province, NoticeView(f), timestamp).hidden == 0
    ensures Notifier.Compose(f.province, NoticeView(f), timestamp).office.None?
    ensures !Notifier.Compose(f.province, NoticeView(f), timestamp).booked
  {
  }

  // ---- a worked scenario ---------------------------------------------------

  /** A province name the worked example can use: no blanks at its ends, and not the placeholder option's text. */
  predicate ScenarioProvince(p: string) {
    p != [] && !IsSpace(p[0]) && !IsSpace(p[|p| - 1]) && p != "Seleccione"
  }

  /** A placeholder option, then the province padded with blanks. */
  function ScenarioOptions(p: string): seq<Choice> {
    [Choice("Seleccione", Some("0")), Choice(" " + p + " ", Some("5"))]
  }

  /** A start page whose form holds a hidden token and the province `select`. */
  function ScenarioForm(p: string): Form {
    Form(Some("/icpplus/citar"), [
      Element("input", Some("token"), Some("hidden"), Some("abc"), [], "", "", []),
      Element("select", Some("provincia"), None, None, [], "", "", ScenarioOptions(p)),
      Element("input", Some("btnAceptar"), Some("submit"), Some("Aceptar"), [], "", "", [])])
  }

  function ScenarioStart(p: string): Page {
    Page(Portal.BaseUrl, "", [], [ScenarioForm(p)])
  }

  const ScenarioLanding: Page := Page("", "Calendario", [], [])

  /** Two server errors, then the start page; the POST is answered at once from `landingUrl`. */
  function Scenario(p: string, landingUrl: string): HttpEnv {
    HttpEnv(
      [Answer(503, "", ScenarioStart(p)), Answer(503, "", ScenarioStart(p)), Answer(200, Portal.BaseUrl, ScenarioStart(p))],
      [Answer(200, landingUrl, ScenarioLanding)])
  }

  /** An option whose text is the province padded with blanks is found after a non-matching first option. */
  lemma PaddedOptionResolves(first: Choice, p: string, v: string)
    requires p != [] && !IsSpace(p[0]) && !IsSpace(p[|p| - 1])
    requires !LabelMatches(first, p)
    ensures ResolveLabel([first, Choice(" " + p + " ", Some(v))], p) == Some(v)
  {
    var options := [first, Choice(" " + p + " ", Some(v))];
    TrimRemovesPadding(" ", p, " ");
    FirstMatchWins(options, p, 1);
  }

  lemma ScenarioResolve(p: string)
    requires ScenarioProvince(p)
    ensures ResolveLabel(ScenarioOptions(p), p) == Some("5")
  {
    assert Trim("Seleccione") == "Seleccione" by {
      TrimRemovesPadding("", "Seleccione", "");
      assert "" + "Seleccione" + "" == "Seleccione";
    }
    PaddedOptionResolves(Choice("Seleccione", Some("0")), p, "5");
  }

  lemma ScenarioHiddenField(p: string)
    ensures Contribution(ScenarioForm(p).fields[0], p) == Some(("token", "abc"))
  {
  }

  lemma ScenarioProvinceField(p: string)
    requires ScenarioProvince(p)
    ensures Contribution(ScenarioForm(p).fields[1], p) == Some(("provincia", "5"))
  {
    var e := ScenarioForm(p).fields[1];
    assert e.options == ScenarioOptions(p);
    ScenarioResolve(p);
    assert OffersLabel(e, p);
    ProvinceSelectContribution(e, p);
  }

  lemma ScenarioSubmitField(p: string)
    ensures Contribution(ScenarioForm(p).fields[2], p) == None
  {
  }

  lemma ScenarioFieldMap(p: string)
    requires ScenarioProvince(p)
    ensures FieldMap(ScenarioForm(p).fields, p) == map["token" := "abc", "provincia" := "5"]
  {
    var fields := ScenarioForm(p).fields;
    ScenarioHiddenField(p);
    ScenarioProvinceField(p);
    ScenarioSubmitField(p);
    var f1 := fields[..1];
    assert f1[..0] == [] && f1[0] == fields[0];
    assert FieldMap(f1, p) == map["token" := "abc"];
    var f2 := fields[..2];
    assert f2[..1] == f1 && f2[1] == fields[1];
    assert FieldMap(f2, p) == map["token" := "abc", "provincia" := "5"];
    assert fields[..2] == f2;
  }

  lemma ScenarioRequests(p: string, landingUrl: string)
    ensures MakeRequestWithRetry(Scenario(p, landingUrl).getOutcomes, DefaultMaxRetries)
            == Run(Some(Fetched(ScenarioStart(p), Portal.BaseUrl, 200)), 3, [2, 4])
    ensures MakeRequestWithRetry(Scenario(p, landingUrl).postOutcomes, DefaultMaxRetries)
            == Run(Some(Fetched(ScenarioLanding, landingUrl, 200)), 1, [])
  {
    assert Backoff(1) == 2 && Backoff(2) == 4;
  }

  lemma ScenarioOpen()
    ensures !MentionsAny(Lower(ScenarioLanding.content), HttpNegativePhrases)
    ensures MentionsAny(Lower(ScenarioLanding.content), HttpPositivePhrases)
  {
    var text := Lower(ScenarioLanding.content);
    assert text == "calendario";
    assert Occurs(text, HttpPositivePhrases[3]) by {
      assert OccursAt(text, HttpPositivePhrases[3], 0);
    }
    forall i | 0 <= i < |HttpNegativePhrases|
      ensures !Occurs(text, HttpNegativePhrases[i])
    {
      assert |HttpNegativePhrases[i]| > |text|;
    }
  }

  lemma ScenarioPlannedPost(p: string, landingUrl: string)
    requires ScenarioProvince(p)
    ensures PlannedPost(Scenario(p, landingUrl), p)
            == Some(Post(Portal.Origin + "/icpplus/citar", map["token" := "abc", "provincia" := "5"]))
  {
    ScenarioRequests(p, landingUrl);
    ScenarioFieldMap(p);
    assert StartPage(Scenario(p, landingUrl)) == Some(ScenarioStart(p));
    assert ProvinceForm(Scenario(p, landingUrl)) == Some(ScenarioForm(p));
    assert StartsWith("/icpplus/citar", "/");
    assert SubmitTarget(ScenarioForm(p)) == Portal.Origin + "/icpplus/citar";
  }

  /**
   * The scenario: the start page is reached on the third attempt after two
   * waits, the form is posted with the hidden token and the option value of
   * the province, and the page the POST lands on reads as open; whether a
   * finding is reported then depends only on the URL it landed on.
   */
  lemma ScenarioFinds(p: string, landingUrl: string)
    requires ScenarioProvince(p)
    ensures CheckProvince(Scenario(p, landingUrl), p, "t").post
            == Some(Post(Portal.Origin + "/icpplus/citar", map["token" := "abc", "provincia" := "5"]))
    ensures CheckProvince(Scenario(p, landingUrl), p, "t").requests == 4
    ensures CheckProvince(Scenario(p, landingUrl), p, "t").delays == [2, 4]
    ensures CheckProvince(Scenario(p, landingUrl), p, "t").finding.Some?
            <==> Contains(landingUrl, Portal.ServicePageMarker)
  {
    var env := Scenario(p, landingUrl);
    ScenarioPlannedPost(p, landingUrl);
    ScenarioRequests(p, landingUrl);
    ScenarioOpen();
    assert LandingPage(env) == Some(ScenarioLanding.(url := landingUrl));
    FindingIff(env, p, "t");
    CheckCost(env, p, "t");
  }
}

=== FILE: notifier.dfy ===
/**
 * The text of the operator notifications. An appointment message is built
 * line by line from the finding; error and status messages are a header, a
 * timestamp line and the given text. Timestamps are parameters.
 */
module Notifier {
  import opened Wrappers
  import opened Text
  import Portal

  /** The keys of a finding the formatter reads: `dates`, `office` and `booking_attempted`, each possibly absent. */
  datatype NoticeInfo = NoticeInfo(dates: Option<seq<string>>, office: Option<string>, bookingAttempted: Option<bool>)

  /**
   * What an appointment message says: the province, the time, the dates it
   * lists, how many more it only counts, the office if any, and whether a
   * booking was attempted.
   */
  datatype Notice = Notice(
    province: string,
    timestamp: string,
    shown: seq<string>,
    hidden: nat,
    office: Option<string>,
    booked: bool)

  const MaxShownDates: nat := 5

  /** The choices `format_appointment_message` makes from the finding. */
  function Compose(province: string, info: NoticeInfo, timestamp: string): (n: Notice)
    ensures n.province == province && n.timestamp == timestamp
    ensures |n.shown| <= MaxShownDates && |n.shown| <= |info.dates.GetOr([])|
    ensures n.shown == info.dates.GetOr([])[..|n.shown|]
    ensures |n.shown| + n.hidden == |info.dates.GetOr([])|
    ensures n.hidden > 0 ==> |n.shown| == MaxShownDates
    ensures n.shown == [] <==> info.dates.GetOr([]) == []
    ensures n.office.Some? <==> info.office.Some? && info.office.value != ""
    ensures n.office.Some? ==> n.office == info.office
    ensures n.booked <==> info.bookingAttempted == Some(true)
  {
    var dates := info.dates.GetOr([]);
    var k := if |dates| < MaxShownDates then |dates| else MaxShownDates;
    var office := if info.office.Some? && info.office.value != "" then info.office else None;
    Notice(province, timestamp, dates[..k], |dates| - k, office, info.bookingAttempted == Some(true))
  }

  /** The shapes `Compose` produces. */
  predicate WellFormed(n: Notice) {
    |n.shown| <= MaxShownDates && (n.hidden > 0 ==> |n.shown| == MaxShownDates)
  }

  // ---- lines of an appointment message ------------------------------------

  const Banner: string := "\U{1F6A8} <b>ASYLUM APPOINTMENT AVAILABLE!</b> \U{1F6A8}"
  const ProvincePrefix: string := "\U{1F4CD} <b>Province:</b> "
  const FoundAtPrefix: string := "\U{23F0} <b>Found at:</b> "
  const DatesHeader: string := "\U{1F4C5} <b>Available dates:</b>"
  const Bullet: string := "   \U{2022} "
  const MorePrefix: string := "   \U{2022} ... and "
  const MoreSuffix: string := " more"
  const OfficePrefix: string := "\U{1F3E2} <b>Office:</b> "
  const UserHeader: string := "\U{1F464} <b>User Details:</b>"
  const AutoText: string := "Auto-booking attempted!"
  const ManualText: string := "Manual booking required"
  const AutoLine: string := "\U{2705} <b>" + AutoText + "</b>"
  const ManualLine: string := "\U{26A0}\U{FE0F} <b>" + ManualText + "</b>"
  const LinkLine: string := "\U{1F517} Visit: https://icp.administracionelectronica.gob.es/icpplus/acOpcDirect"

  function Bullets(ds: seq<string>): (r: seq<string>)
    ensures |r| == |ds|
    ensures forall i :: 0 <= i < |ds| ==> r[i] == Bullet + ds[i]
  {
    seq(|ds|, i requires 0 <= i < |ds| => Bullet + ds[i])
  }

  function MoreLine(hidden: nat): string {
    MorePrefix + NatToString(hidden) + MoreSuffix
  }

  function DateItems(shown: seq<string>, hidden: nat): seq<string> {
    Bullets(shown) + (if hidden > 0 then [MoreLine(hidden)] else [])
  }

  function DatesBlock(shown: seq<string>, hidden: nat): seq<string> {
    if shown == [] then [] else [DatesHeader] + DateItems(shown, hidden) + [""]
  }

  function OfficeBlock(office: Option<string>): seq<string> {
    match office
    case None => []
    case Some(o) => [OfficePrefix + o, ""]
  }

  function UserBlock(profile: Portal.UserProfile): seq<string> {
    [UserHeader,
     Bullet + "Name: " + profile.fullName,
     Bullet + "Passport: " + profile.passportNumber,
     Bullet + "Email: " + profile.email,
     Bullet + "Phone: " + profile.phone,
     ""]
  }

  function BookingLine(booked: bool): string {
    if booked then AutoLine else ManualLine
  }

  function Header(n: Notice): seq<string> {
    [Banner, "", ProvincePrefix + n.province, FoundAtPrefix + n.timestamp, ""]
  }

  function Footer(booked: bool): seq<string> {
    [BookingLine(booked), "", LinkLine]
  }

  /** The message's lines; the message is these joined with newlines. */
  function Render(n: Notice, profile: Portal.UserProfile): seq<string> {
    Header(n) + DatesBlock(n.shown, n.hidden) + OfficeBlock(n.office) + UserBlock(profile) + Footer(n.booked)
  }

  function Join(lines: seq<string>): string {
    if lines == [] then ""
    else if |lines| == 1 then lines[0]
    else Join(lines[..|lines| - 1]) + "\n" + lines[|lines| - 1]
  }

  /** `format_appointment_message(province, appointment_info)` with the clock read passed in. */
  function FormatAppointmentMessage(province: string, info: NoticeInfo, timestamp: string,
                                    profile: Portal.UserProfile): (msg: string)
    ensures Contains(msg, province)
    ensures EndsWith(msg, LinkLine)
  {
    var ls := Render(Compose(province, info, timestamp), profile);
    assert ls[2] == ProvincePrefix + province;
    JoinHasLine(ls, 2);
    assert OccursAt(ls[2], province, |ProvincePrefix|);
    ContainsTransitive(Join(ls), ls[2], province);
    JoinEndsWithLast(ls);
    Join(ls)
  }

  // ---- reading a message back ---------------------------------------------

  /** Index of the first empty line, or the length when there is none. */
  function FirstBlank(ls: seq<string>): (k: nat)
    ensures k <= |ls|
    ensures k < |ls| ==> ls[k] == ""
    ensures forall i :: 0 <= i < k ==> ls[i] != ""
  {
    if ls == [] || ls[0] == "" then 0 else 1 + FirstBlank(ls[1..])
  }

  function Unbullet(l: string): string {
    if StartsWith(l, Bullet) then l[|Bullet|..] else l
  }

  function UnbulletAll(ls: seq<string>): (r: seq<string>)
    ensures |r| == |ls|
    ensures forall i :: 0 <= i < |ls| ==> r[i] == Unbullet(ls[i])
  {
    seq(|ls|, i requires 0 <= i < |ls| => Unbullet(ls[i]))
  }

  function ParseMore(l: string): nat {
    if |l| < |MorePrefix| + |MoreSuffix| then 0
    else ParseNat(l[|MorePrefix|..|l| - |MoreSuffix|])
  }

  /** Reads the bullet lines of a dates block: up to five dates, then an optional "... and N more". */
  function ReadItems(items: seq<string>): (seq<string>, nat) {
    if |items| == MaxShownDates + 1 then (UnbulletAll(items[..MaxShownDates]), ParseMore(items[MaxShownDates]))
    else (UnbulletAll(items), 0)
  }

  /** Reads an optional dates block: the listed dates, the hidden count, and the lines after it. */
  function ParseDates(ls: seq<string>): (seq<string>, nat, seq<string>) {
    if ls == [] || ls[0] != DatesHeader then ([], 0, ls)
    else
      var body := ls[1..];
      var k := FirstBlank(body);
      var (shown, hidden) := ReadItems(body[..k]);
      (shown, hidden, if k < |body| then body[k + 1..] else [])
  }

  function ParseOffice(ls: seq<string>): (Option<string>, seq<string>) {
    if |ls| >= 2 && StartsWith(ls[0], OfficePrefix) then (Some(ls[0][|OfficePrefix|..]), ls[2..])
    else (None, ls)
  }

  /** Reads the first five lines: the province and the timestamp. */
  function ParseHeader(ls: seq<string>): Option<(string, string)> {
    if |ls| < 5 || ls[0] != Banner || ls[1] != "" || ls[4] != ""
       || !StartsWith(ls[2], ProvincePrefix) || !StartsWith(ls[3], FoundAtPrefix) then None
    else Some((ls[2][|ProvincePrefix|..], ls[3][|FoundAtPrefix|..]))
  }

  /** Reads the user block and the footer: whether a booking was attempted. */
  function ParseFooter(tail: seq<string>): Option<bool> {
    if |tail| != 9 || tail[0] != UserHeader || tail[7] != "" || tail[8] != LinkLine then None
    else if tail[6] == AutoLine then Some(true)
    else if tail[6] == ManualLine then Some(false)
    else None
  }

  /** Recovers what an appointment message says from its lines. */
  function Parse(ls: seq<string>): Option<Notice> {
    match ParseHeader(ls)
    case None => None
    case Some((province, timestamp)) =>
      var (shown, hidden, afterDates) := ParseDates(ls[5..]);
      var (office, tail) := ParseOffice(afterDates);
      match ParseFooter(tail)
      case None => None
      case Some(booked) => Some(Notice(province, timestamp, shown, hidden, office, booked))
  }

  lemma UnbulletBullets(ds: seq<string>)
    ensures UnbulletAll(Bullets(ds)) == ds
  {
    forall i | 0 <= i < |ds|
      ensures Unbullet(Bullet + ds[i]) == ds[i]
    {
      assert (Bullet + ds[i])[..|Bullet|] == Bullet;
      assert (Bullet + ds[i])[|Bullet|..] == ds[i];
    }
  }

  lemma {:induction false} FirstBlankAfter(xs: seq<string>, ys: seq<string>)
    requires forall i :: 0 <= i < |xs| ==> xs[i] != ""
    ensures FirstBlank(xs + [""] + ys) == |xs|
    decreases |xs|
  {
    if xs != [] {
      assert (xs + [""] + ys)[1..] == xs[1..] + [""] + ys;
      FirstBlankAfter(xs[1..], ys);
    }
  }

  lemma MoreLineParses(hidden: nat)
    ensures ParseMore(MoreLine(hidden)) == hidden
  {
    var l := MoreLine(hidden);
    assert l[|MorePrefix|..|l| - |MoreSuffix|] == NatToString(hidden);
    ParseNatToString(hidden);
  }

  lemma ItemsRead(shown: seq<string>, hidden: nat)
    requires |shown| <= MaxShownDates && (hidden > 0 ==> |shown| == MaxShownDates)
    ensures ReadItems(DateItems(shown, hidden)) == (shown, hidden)
  {
    var items := DateItems(shown, hidden);
    UnbulletBullets(shown);
    if hidden > 0 {
      assert items[..MaxShownDates] == Bullets(shown);
      assert items[MaxShownDates] == MoreLine(hidden);
      MoreLineParses(hidden);
    } else {
      assert items == Bullets(shown);
    }
  }

  lemma ItemsNotBlank(shown: seq<string>, hidden: nat)
    ensures forall i :: 0 <= i < |DateItems(shown, hidden)| ==> DateItems(shown, hidden)[i] != ""
  {
    var items := DateItems(shown, hidden);
    forall i | 0 <= i < |items|
      ensures items[i] != ""
    {
      if i < |shown| {
        assert items[i] == Bullet + shown[i];
      } else {
        assert items[i] == MoreLine(hidden);
      }
    }
  }

  /** A dates header, non-blank item lines and a blank line are read as those items, leaving what follows. */
  lemma ParseDatesSplits(items: seq<string>, rest: seq<string>)
    requires forall i :: 0 <= i < |items| ==> items[i] != ""
    ensures ParseDates([DatesHeader] + items + [""] + rest) == (ReadItems(items).0, ReadItems(items).1, rest)
  {
    var body := items + [""] + rest;
    var ls := [DatesHeader] + items + [""] + rest;
    assert ls[1..] == body;
    FirstBlankAfter(items, rest);
    assert body[..|items|] == items;
    assert body[|items| + 1..] == rest;
  }

  lemma DatesBlockParses(shown: seq<string>, hidden: nat, rest: seq<string>)
    requires |shown| <= MaxShownDates && (hidden > 0 ==> |shown| == MaxShownDates)
    requires rest != [] ==> rest[0] != DatesHeader
    ensures ParseDates(DatesBlock(shown, hidden) + rest) == (shown, hidden, rest)
  {
    if shown == [] {
      assert DatesBlock(shown, hidden) + rest == rest;
    } else {
      var items := DateItems(shown, hidden);
      assert DatesBlock(shown, hidden) + rest == [DatesHeader] + items + [""] + rest;
      ItemsNotBlank(shown, hidden);
      ParseDatesSplits(items, rest);
      ItemsRead(shown, hidden);
    }
  }

  lemma HeaderParses(n: Notice, more: seq<string>)
    ensures ParseHeader(Header(n) + more) == Some((n.province, n.timestamp))
  {
    var ls := Header(n) + more;
    assert ls[2] == ProvincePrefix + n.province;
    assert ls[3] == FoundAtPrefix + n.timestamp;
    assert ls[2][..|ProvincePrefix|] == ProvincePrefix;
    assert ls[2][|ProvincePrefix|..] == n.province;
    assert ls[3][..|FoundAtPrefix|] == FoundAtPrefix;
    assert ls[3][|FoundAtPrefix|..] == n.timestamp;
  }

  lemma OfficeParses(office: Option<string>, tail: seq<string>)
    requires tail != [] && tail[0] == UserHeader
    ensures ParseOffice(OfficeBlock(office) + tail) == (office, tail)
  {
    if office.Some? {
      var o := office.value;
      var ls := OfficeBlock(office) + tail;
      assert ls[0] == OfficePrefix + o;
      assert ls[0][..|OfficePrefix|] == OfficePrefix;
      assert ls[0][|OfficePrefix|..] == o;
      assert ls[2..] == tail;
    } else {
      assert OfficeBlock(office) + tail == tail;
      assert UserHeader[0] != OfficePrefix[0];
    }
  }

  lemma FooterParses(profile: Portal.UserProfile, booked: bool)
    ensures ParseFooter(UserBlock(profile) + Footer(booked)) == Some(booked)
  {
    assert AutoLine[0] != ManualLine[0];
  }

  /** Reading the rendered lines gives back exactly what the message was meant to say. */
  lemma RenderParses(n: Notice, profile: Portal.UserProfile)
    requires WellFormed(n)
    ensures Parse(Render(n, profile)) == Some(n)
  {
    var tail := UserBlock(profile) + Footer(n.booked);
    var afterDates := OfficeBlock(n.office) + tail;
    var ls := Render(n, profile);
    assert ls == Header(n) + (DatesBlock(n.shown, n.hidden) + afterDates);
    HeaderParses(n, DatesBlock(n.shown, n.hidden) + afterDates);
    assert ls[5..] == DatesBlock(n.shown, n.hidden) + afterDates;
    assert afterDates[0] != DatesHeader by {
      if n.office.Some? {
        assert afterDates[0] == OfficePrefix + n.office.value;
        assert afterDates[0][0] != DatesHeader[0];
      } else {
        assert afterDates[0] == UserHeader;
      }
    }
    DatesBlockParses(n.shown, n.hidden, afterDates);
    OfficeParses(n.office, tail);
    FooterParses(profile, n.booked);
  }

  /** Lines other than the booking line never start like the booking line. */
  predicate NotBookingLike(l: string) {
    l == "" || (l[0] != AutoLine[0] && l[0] != ManualLine[0])
  }

  /** The message carries the auto-booking line iff a booking was attempted, and the manual line otherwise. */
  lemma BookingLineIff(n: Notice, profile: Portal.UserProfile)
    ensures AutoLine in Render(n, profile) <==> n.booked
    ensures ManualLine in Render(n, profile) <==> !n.booked
  {
    var rest := Header(n) + DatesBlock(n.shown, n.hidden) + OfficeBlock(n.office) + UserBlock(profile);
    assert forall l :: l in Header(n) ==> NotBookingLike(l) by {
      assert (ProvincePrefix + n.province)[0] == ProvincePrefix[0];
      assert (FoundAtPrefix + n.timestamp)[0] == FoundAtPrefix[0];
    }
    assert forall l :: l in DatesBlock(n.shown, n.hidden) ==> NotBookingLike(l) by {
      forall l | l in DatesBlock(n.shown, n.hidden)
        ensures NotBookingLike(l)
      {
        if l in Bullets(n.shown) {
          var i :| 0 <= i < |n.shown| && Bullets(n.shown)[i] == l;
          assert l[0] == Bullet[0];
        } else if n.hidden > 0 && l == MoreLine(n.hidden) {
          assert l[0] == MorePrefix[0];
        }
      }
    }
    assert forall l :: l in OfficeBlock(n.office) ==> NotBookingLike(l) by {
      if n.office.Some? {
        assert (OfficePrefix + n.office.value)[0] == OfficePrefix[0];
      }
    }
    assert forall l :: l in UserBlock(profile) ==> NotBookingLike(l) by {
      assert (Bullet + "Name: " + profile.fullName)[0] == Bullet[0];
      assert (Bullet + "Passport: " + profile.passportNumber)[0] == Bullet[0];
      assert (Bullet + "Email: " + profile.email)[0] == Bullet[0];
      assert (Bullet + "Phone: " + profile.phone)[0] == Bullet[0];
    }
    assert forall l :: l in rest ==> NotBookingLike(l);
    assert Render(n, profile) == rest + Footer(n.booked);
    assert !NotBookingLike(AutoLine) && !NotBookingLike(ManualLine);
  }

  // ---- properties of the joined text ---------------------------------------

  lemma {:induction false} JoinHasLine(ls: seq<string>, i: nat)
    requires i < |ls|
    ensures Occurs(Join(ls), ls[i])
    decreases |ls|
  {
    if |ls| > 1 {
      var init := Join(ls[..|ls| - 1]);
      if i < |ls| - 1 {
        JoinHasLine(ls[..|ls| - 1], i);
        var k: nat :| OccursAt(init, ls[i], k);
        assert (init + "\n" + ls[|ls| - 1])[k..k + |ls[i]|] == init[k..k + |ls[i]|];
        assert OccursAt(Join(ls), ls[i], k);
      } else {
        var s := init + "\n" + ls[|ls| - 1];
        assert s[|init| + 1..|init| + 1 + |ls[i]|] == ls[i];
        assert OccursAt(Join(ls), ls[i], |init| + 1);
      }
    } else {
      assert OccursAt(Join(ls), ls[i], 0);
    }
  }

  lemma JoinEndsWithLast(ls: seq<string>)
    requires ls != []
    ensures EndsWith(Join(ls), ls[|ls| - 1])
  {
    if |ls| > 1 {
      var s := Join(ls[..|ls| - 1]) + "\n" + ls[|ls| - 1];
      assert s[|s| - |ls[|ls| - 1]|..] == ls[|ls| - 1];
    }
  }

  /** The header names the province, the message closes with the portal link, and it states the booking outcome. */
  lemma MessageShape(province: string, info: NoticeInfo, timestamp: string, profile: Portal.UserProfile)
    ensures Contains(FormatAppointmentMessage(province, info, timestamp, profile), province)
    ensures EndsWith(FormatAppointmentMessage(province, info, timestamp, profile), LinkLine)
    ensures info.bookingAttempted == Some(true) ==>
              Contains(FormatAppointmentMessage(province, info, timestamp, profile), AutoText)
    ensures info.bookingAttempted != Some(true) ==>
              Contains(FormatAppointmentMessage(province, info, timestamp, profile), ManualText)
  {
    var n := Compose(province, info, timestamp);
    var ls := Render(n, profile);
    var msg := Join(ls);
    var b := |ls| - 3;
    assert ls[b] == BookingLine(n.booked);
    JoinHasLine(ls, b);
    if n.booked {
      OccursBetween("\U{2705} <b>", AutoText, "</b>");
      ContainsTransitive(msg, AutoLine, AutoText);
    } else {
      OccursBetween("\U{26A0}\U{FE0F} <b>", ManualText, "</b>");
      ContainsTransitive(msg, ManualLine, ManualText);
    }
  }

  // ---- error and status messages -----------------------------------------

  const ErrorHeader: string := "\U{274C} <b>Asylum Bot Error</b>"
  const ErrorMarker: string := "\U{1F4AC} "
  const StatusHeader: string := "\U{2139}\U{FE0F} <b>Asylum Bot Status</b>"
  const StatusMarker: string := "\U{1F4CA} "
  const ClockMark: string := "\U{23F0} "

  /** A fixed header, a blank line, the timestamp line, then the marked text. */
  function Report(header: string, marker: string, timestamp: string, text: string): string {
    header + "\n\n" + ClockMark + timestamp + "\n" + marker + text
  }

  /** The text `send_error_notification(error_message)` sends: the error header first, the marked message last. */
  function ErrorMessage(timestamp: string, errorMessage: string): (msg: string)
    ensures StartsWith(msg, ErrorHeader)
    ensures EndsWith(msg, ErrorMarker + errorMessage)
  {
    ReportEnds(ErrorHeader, ErrorMarker, timestamp, errorMessage);
    Report(ErrorHeader, ErrorMarker, timestamp, errorMessage)
  }

  /** The text `send_status_update(status)` sends: the status header first, the marked status last. */
  function StatusMessage(timestamp: string, status: string): (msg: string)
    ensures StartsWith(msg, StatusHeader)
    ensures EndsWith(msg, StatusMarker + status)
  {
    ReportEnds(StatusHeader, StatusMarker, timestamp, status);
    Report(StatusHeader, StatusMarker, timestamp, status)
  }

  lemma ReportEnds(header: string, marker: string, timestamp: string, text: string)
    ensures StartsWith(Report(header, marker, timestamp, text), header)
    ensures EndsWith(Report(header, marker, timestamp, text), marker + text)
  {
    var m := Report(header, marker, timestamp, text);
    assert m == header + ("\n\n" + ClockMark + timestamp + "\n") + (marker + text);
    assert m[..|header|] == header;
    assert m[|m| - |marker + text|..] == marker + text;
  }

  /** Index of the first newline, or the length when there is none. */
  function LineEnd(s: string): (k: nat)
    ensures k <= |s|
    ensures k < |s| ==> s[k] == '\n'
    ensures forall i :: 0 <= i < k ==> s[i] != '\n'
  {
    if s == [] || s[0] == '\n' then 0 else 1 + LineEnd(s[1..])
  }

  /** Splits a report back into its timestamp and its text. */
  function ReadReport(header: string, marker: string, msg: string): Option<(string, string)> {
    var lead := header + "\n\n" + ClockMark;
    if !StartsWith(msg, lead) then None
    else
      var rest := msg[|lead|..];
      var k := LineEnd(rest);
      if k == |rest| then None
      else
        var after := rest[k + 1..];
        if !StartsWith(after, marker) then None else Some((rest[..k], after[|marker|..]))
  }

  lemma {:induction false} LineEndAfter(line: string, more: string)
    requires forall i :: 0 <= i < |line| ==> line[i] != '\n'
    ensures LineEnd(line + "\n" + more) == |line|
    decreases |line|
  {
    if line != [] {
      assert (line + "\n" + more)[1..] == line[1..] + "\n" + more;
      LineEndAfter(line[1..], more);
    }
  }

  /** A one-line timestamp and the text are read back from the report unchanged. */
  lemma ReportRoundTrip(header: string, marker: string, timestamp: string, text: string)
    requires forall i :: 0 <= i < |timestamp| ==> timestamp[i] != '\n'
    ensures ReadReport(header, marker, Report(header, marker, timestamp, text)) == Some((timestamp, text))
  {
    var lead := header + "\n\n" + ClockMark;
    var msg := Report(header, marker, timestamp, text);
    assert msg == lead + (timestamp + "\n" + (marker + text));
    var rest := msg[|lead|..];
    assert rest == timestamp + "\n" + (marker + text);
    LineEndAfter(timestamp, marker + text);
    assert rest[..|timestamp|] == timestamp;
    assert rest[|timestamp| + 1..] == marker + text;
    assert (marker + text)[..|marker|] == marker;
    assert (marker + text)[|marker|..] == text;
  }

  /** A report starts with its own header, and is not read as a report whose header starts differently. */
  lemma ReportHeaderDecides(header: string, marker: string, timestamp: string, text: string,
                            otherHeader: string, otherMarker: string)
    requires header != [] && otherHeader != [] && header[0] != otherHeader[0]
    ensures StartsWith(Report(header, marker, timestamp, text), header)
    ensures ReadReport(otherHeader, otherMarker, Report(header, marker, timestamp, text)).None?
  {
    var m := Report(header, marker, timestamp, text);
    assert m == header + ("\n\n" + ClockMark + timestamp + "\n" + marker + text);
    assert m[..|header|] == header;
    assert m[0] == header[0];
    var lead := otherHeader + "\n\n" + ClockMark;
    assert lead[0] == otherHeader[0];
  }

  /** An error report gives back its timestamp and message, and never passes for a status report. */
  lemma ErrorMessageReads(timestamp: string, errorMessage: string)
    requires forall i :: 0 <= i < |timestamp| ==> timestamp[i] != '\n'
    ensures StartsWith(ErrorMessage(timestamp, errorMessage), ErrorHeader)
    ensures ReadReport(ErrorHeader, ErrorMarker, ErrorMessage(timestamp, errorMessage)) == Some((timestamp, errorMessage))
    ensures ReadReport(StatusHeader, StatusMarker, ErrorMessage(timestamp, errorMessage)).None?
  {
    ReportRoundTrip(ErrorHeader, ErrorMarker, timestamp, errorMessage);
    ReportHeaderDecides(ErrorHeader, ErrorMarker, timestamp, errorMessage, StatusHeader, StatusMarker);
  }

  /** A status report gives back its timestamp and status, and never passes for an error report. */
  lemma StatusMessageReads(timestamp: string, status: string)
    requires forall i :: 0 <= i < |timestamp| ==> timestamp[i] != '\n'
    ensures StartsWith(StatusMessage(timestamp, status), StatusHeader)
    ensures ReadReport(StatusHeader, StatusMarker, StatusMessage(timestamp, status)) == Some((timestamp, status))
    ensures ReadReport(ErrorHeader, ErrorMarker, StatusMessage(timestamp, status)).None?
  {
    ReportRoundTrip(StatusHeader, StatusMarker, timestamp, status);
    ReportHeaderDecides(StatusHeader, StatusMarker, timestamp, status, ErrorHeader, ErrorMarker);
  }
}

=== FILE: playwright_bot.dfy ===
/**
 * The Playwright bot (`AsylumAppointmentBot`). The browser and its context
 * outlive a check; each province check opens a page, navigates to the start
 * URL, walks the four portal steps, reads the availability page, tries to
 * book, and closes the page it opened. The browser is replaced by the page
 * shown after each action of the check.
 */
module PlaywrightBot {
  import opened Wrappers
  import opened Text
  import opened Seqs
  import opened Html
  import opened Availability
  import opened Browser
  import Steps
  import Cycle
  import Portal
  import SeleniumBot

  /**
   * The pages of one check, as in the Selenium model, plus whether a new
   * page can be opened, whether the start URL loads, and whether
   * `page.close()` returns normally.
   */
  datatype Session = Session(
    pageOpens: bool,
    loads: bool,
    closes: bool,
    start: Page,
    services: Page,
    asylumServices: Page,
    info: Page,
    entry: Page,
    availability: Page,
    contact: Page)

  // `page.wait_for_url` with the glob "double star, slash, marker": the URL ends with `/` and the marker.
  predicate Reached(p: Page, marker: string) {
    EndsWith(p.url, "/" + marker)
  }

  /** `<tag>[name="<n>"]`: the first element with that tag and name. */
  function Query(p: Page, tag: string, n: string): (r: Option<Element>)
    ensures r.Some? <==> exists i :: 0 <= i < |p.elements| && p.elements[i].tag == tag && Named(p.elements[i], n)
    ensures r.Some? ==> r.value.tag == tag && Named(r.value, n) && r.value in p.elements
  {
    match FirstIndex(p.elements, (e: Element) => e.tag == tag && Named(e, n))
    case None => None
    case Some(i) => Some(p.elements[i])
  }

  /** `page.select_option('select[name="<n>"]', label=caption)` succeeds. */
  predicate SelectsOption(p: Page, n: string, caption: string) {
    var e := Query(p, "select", n);
    e.Some? && OffersLabel(e.value, caption)
  }

  /** `input[type="radio"][value*="<marker>"]` and its `.first`. */
  function ValueRadio(p: Page, marker: string): (r: Option<nat>)
    ensures r.Some? ==> r.value < |p.elements| && IsRadio(p.elements[r.value]) && ValueHas(p.elements[r.value], marker)
    ensures r.Some? ==> forall j :: 0 <= j < r.value && IsRadio(p.elements[j]) ==> !ValueHas(p.elements[j], marker)
    ensures r.None? <==> forall j :: 0 <= j < |p.elements| && IsRadio(p.elements[j]) ==> !ValueHas(p.elements[j], marker)
  {
    FirstIndex(p.elements, e => IsRadio(e) && ValueHas(e, marker))
  }

  // ---- the four steps ------------------------------------------------------

  predicate ProvinceSelected(s: Session, province: string) {
    && SelectsOption(s.start, Portal.ProvinceField, province)
    && HasButton(s.start, Portal.AcceptLabel)
    && Reached(s.services, Portal.ServicePageMarker)
  }

  /**
   * The police radio can be checked and `Aceptar` clicked on the first choice
   * page: only then is the asylum page shown.
   */
  predicate PoliceChoiceAccepted(s: Session) {
    ValueRadio(s.services, Portal.PoliceMarker).Some? && HasButton(s.services, Portal.AcceptLabel)
  }

  /** Checking a radio that does not exist times out, so here the choice is part of success. */
  predicate ServiceSelected(s: Session) {
    && PoliceChoiceAccepted(s)
    && ValueRadio(s.asylumServices, Portal.AsylumMarker).Some? && HasButton(s.asylumServices, Portal.AcceptLabel)
    && Reached(s.info, Portal.InfoPageMarker)
  }

  predicate EntryReached(s: Session) {
    HasButton(s.info, Portal.EnterLabel) && Reached(s.entry, Portal.EntryPageMarker)
  }

  predicate UserDataFilled(s: Session, profile: Portal.UserProfile) {
    && SelectsOption(s.entry, Portal.DocTypeField, Portal.PassportOption)
    && Query(s.entry, "input", Portal.IdField).Some?
    && Query(s.entry, "input", Portal.NameField).Some?
    && Query(s.entry, "input", Portal.BirthYearField).Some?
    && SelectsOption(s.entry, Portal.CountryField, profile.nationality)
    && HasButton(s.entry, Portal.AcceptLabel)
  }

  /**
   * What each step would report, in the order the check runs them. Every
   * wait, click and fill on a missing element times out and fails its step:
   * an unoffered province fails the first, a missing service radio the second.
   */
  function StepResults(s: Session, profile: Portal.UserProfile, province: string): (checks: seq<bool>)
    ensures |checks| == |Steps.Order|
    ensures checks[0] ==> Query(s.start, "select", Portal.ProvinceField).Some?
                          && OffersLabel(Query(s.start, "select", Portal.ProvinceField).value, province)
                          && EndsWith(s.services.url, "/" + Portal.ServicePageMarker)
    ensures checks[1] ==> ValueRadio(s.services, Portal.PoliceMarker).Some?
                          && ValueRadio(s.asylumServices, Portal.AsylumMarker).Some?
  {
    [ProvinceSelected(s, province), ServiceSelected(s), EntryReached(s), UserDataFilled(s, profile)]
  }

  // ---- office text ---------------------------------------------------------

  /**
   * The tokens a CSS tokenizer makes of a selector (section 4 of CSS Syntax
   * Module Level 3), as far as the office query's selectors need them. A
   * name directly followed by `(` is a function token, not an identifier.
   */
  datatype Token =
    | Ident(name: string)
    | Function(name: string)
    | Delim(c: char)
    | Str(text: string)
    | Space
    | Comma
    | OpenBracket
    | CloseBracket
    | CloseParen

  /** `[contains(text(), "Oficina")]`: an XPath-style text test written in brackets. */
  const TextSelector: seq<Token> :=
    [OpenBracket, Function("contains"), Function("text"), CloseParen, Comma, Space, Str("Oficina"), CloseParen, CloseBracket]

  /** `.oficina, .office, [contains(text(), "Oficina")]`, split at its top-level commas. */
  const OfficeSelectors: seq<seq<Token>> := [[Delim('.'), Ident("oficina")], [Delim('.'), Ident("office")], TextSelector]

  /** `.name`. */
  predicate IsClassSelector(sel: seq<Token>) {
    |sel| == 2 && sel[0] == Delim('.') && sel[1].Ident?
  }

  /** The first token at or after `i` that is not whitespace, or `|t|`. */
  function SkipSpaceTokens(t: seq<Token>, i: nat): (k: nat)
    requires i <= |t|
    ensures i <= k <= |t|
    ensures forall j :: i <= j < k ==> t[j] == Space
    ensures k < |t| ==> t[k] != Space
    decreases |t| - i
  {
    if i == |t| || t[i] != Space then i else SkipSpaceTokens(t, i + 1)
  }

  /**
   * `[name]` or `[name<matcher>value]` (section 6.3 of Selectors Level 3):
   * inside the brackets, after optional whitespace, comes the attribute name,
   * which must be an identifier.
   */
  predicate IsAttributeSelector(sel: seq<Token>) {
    && |sel| >= 3 && sel[0] == OpenBracket && sel[|sel| - 1] == CloseBracket
    && var k := SkipSpaceTokens(sel, 1);
       k < |sel| && sel[k].Ident?
  }

  /** The selector kinds the office query's list is written in; anything else counts as invalid. */
  predicate ValidSelector(sel: seq<Token>) {
    IsClassSelector(sel) || IsAttributeSelector(sel)
  }

  /** Every selector of the list is valid, so the query does not raise. */
  predicate AllValid(sels: seq<seq<Token>>) {
    forall k :: 0 <= k < |sels| ==> ValidSelector(sels[k])
  }

  /** A class selector matches the elements carrying that class; only class selectors are given a matching rule. */
  predicate MatchesSelector(e: Element, sel: seq<Token>) {
    IsClassSelector(sel) && sel[1].name in e.classes
  }

  predicate MatchesAnySelector(e: Element, sels: seq<seq<Token>>) {
    Any(sels, (sel: seq<Token>) => MatchesSelector(e, sel))
  }

  /** What `page.query_selector(list)` does: raises, or finds the first matching element (if any). */
  datatype Lookup = Raises | Finds(first: Option<nat>)

  /** `page.query_selector(list)`: an invalid selector anywhere in the list makes it raise. */
  function QuerySelector(es: seq<Element>, sels: seq<seq<Token>>): (r: Lookup)
    ensures r.Raises? <==> !AllValid(sels)
    ensures r.Finds? && r.first.Some? ==>
              && r.first.value < |es| && MatchesAnySelector(es[r.first.value], sels)
              && forall j :: 0 <= j < r.first.value ==> !MatchesAnySelector(es[j], sels)
    ensures r.Finds? && r.first.None? ==> forall j :: 0 <= j < |es| ==> !MatchesAnySelector(es[j], sels)
  {
    if !AllValid(sels) then Raises
    else Finds(FirstIndex(es, (e: Element) => MatchesAnySelector(e, sels)))
  }

  /**
   * The `try` around the office query: its text when an element is found,
   * and `''` when none is or when the query raises and `except: pass`
   * swallows it.
   */
  function OfficeFromQuery(es: seq<Element>, sels: seq<seq<Token>>): (r: string)
    ensures !AllValid(sels) ==> r == ""
    ensures (forall j :: 0 <= j < |es| ==> !MatchesAnySelector(es[j], sels)) ==> r == ""
    ensures AllValid(sels) ==>
              forall i :: (0 <= i < |es| && MatchesAnySelector(es[i], sels)
                           && forall j :: 0 <= j < i ==> !MatchesAnySelector(es[j], sels)) ==> r == es[i].text
  {
    match QuerySelector(es, sels)
    case Raises => ""
    case Finds(None) => ""
    case Finds(Some(i)) => es[i].text
  }

  /** The bracket opens with the function token `contains(` where an attribute name must stand. */
  lemma OfficeSelectorsValidity()
    ensures ValidSelector(OfficeSelectors[0]) && ValidSelector(OfficeSelectors[1])
    ensures !ValidSelector(OfficeSelectors[2])
  {
  }

  /** So the query over the whole list raises, and over its first two entries it does not. */
  lemma OfficeListValidity()
    ensures !AllValid(OfficeSelectors) && AllValid(OfficeSelectors[..2])
  {
    OfficeSelectorsValidity();
    var sels := OfficeSelectors[..2];
    assert sels[0] == OfficeSelectors[0] && sels[1] == OfficeSelectors[1];
  }

  /** The office extractor as written: the query over `OfficeSelectors`, which always raises, so the office is always empty. */
  function OfficeAsWritten(es: seq<Element>): (r: string)
    ensures r == ""
  {
    OfficeListValidity();
    OfficeFromQuery(es, OfficeSelectors)
  }

  /** The two class selectors of the list match exactly the elements `IsOfficeLabel` accepts. */
  lemma ClassSelectorsMatchLabels(e: Element)
    ensures MatchesAnySelector(e, OfficeSelectors[..2]) == IsOfficeLabel(e)
  {
    var sels := OfficeSelectors[..2];
    assert sels[0] == [Delim('.'), Ident("oficina")] && sels[1] == [Delim('.'), Ident("office")];
    assert MatchesAnySelector(e, sels) <==> MatchesSelector(e, sels[0]) || MatchesSelector(e, sels[1]);
  }

  /** Without the invalid selector, the query reads the office exactly as the Selenium bot does. */
  lemma ValidPrefixIsOfficeText(es: seq<Element>)
    ensures OfficeFromQuery(es, OfficeSelectors[..2]) == OfficeText(es)
  {
    var sels := OfficeSelectors[..2];
    OfficeListValidity();
    forall i | 0 <= i < |es|
      ensures MatchesAnySelector(es[i], sels) == IsOfficeLabel(es[i])
    {
      ClassSelectorsMatchLabels(es[i]);
    }
    match FirstIndex(es, IsOfficeLabel)
    case None =>
    case Some(i) =>
  }

  /**
   * `.oficina, .office`, or an element whose text mentions "Oficina". The
   * element's whole text is tested, whereas `contains(text(), ...)` would
   * test only its own text nodes, so an enclosing element listed before the
   * label is picked here: an approximation of the intent.
   */
  predicate IsOfficeElement(e: Element) {
    IsOfficeLabel(e) || Contains(e.text, "Oficina")
  }

  /** The office extractor as intended: the text of the first office element, or `''`. */
  function OfficeIntended(es: seq<Element>): (r: string)
    ensures (forall i :: 0 <= i < |es| ==> !IsOfficeElement(es[i])) ==> r == ""
    ensures forall i :: 0 <= i < |es| && IsOfficeElement(es[i]) && (forall j :: 0 <= j < i ==> !IsOfficeElement(es[j]))
              ==> r == es[i].text
  {
    match FirstIndex(es, IsOfficeElement)
    case None => ""
    case Some(i) => es[i].text
  }

  /** An element labelled with the office class is read by the intended extractor, never by the written one. */
  lemma OfficeSelectorDiscrepancy(e: Element, rest: seq<Element>)
    requires IsOfficeLabel(e) && e.text != ""
    ensures OfficeIntended([e] + rest) == e.text
    ensures OfficeAsWritten([e] + rest) == ""
    ensures OfficeIntended([e] + rest) != OfficeAsWritten([e] + rest)
  {
    assert ([e] + rest)[0] == e;
  }

  /** On pages without any office element the two agree. */
  lemma OfficeAgreesWhenAbsent(es: seq<Element>)
    requires forall i :: 0 <= i < |es| ==> !IsOfficeElement(es[i])
    ensures OfficeIntended(es) == OfficeAsWritten(es)
  {
  }

  // ---- booking -------------------------------------------------------------

  /**
   * `auto_select_appointment(page)`: `page.fill` on a missing contact field
   * times out and the booking is given up, so both fields are needed.
   */
  function AutoSelect(availability: Page, contact: Page): (b: Booking)
    ensures b.submitted <==> && Any(availability.elements, IsDateRadio)
                             && Any(availability.elements, IsContinueButton)
                             && Any(contact.elements, IsEmailField)
                             && Any(contact.elements, IsPhoneField)
                             && Any(contact.elements, IsConfirmButton)
    ensures b.date.Some? <==> Any(availability.elements, IsDateRadio)
    ensures b.next.Some? ==> b.date.Some?
    ensures b.phone.Some? ==> b.email.Some? && b.next.Some?
    ensures b.email.Some? ==> b.next.Some? && b.email.value < |contact.elements| && IsEmailField(contact.elements[b.email.value])
    ensures b.phone.Some? ==> b.phone.value < |contact.elements| && IsPhoneField(contact.elements[b.phone.value])
  {
    var date := FirstIndex(availability.elements, IsDateRadio);
    if date.None? then Booking(None, None, None, None, false)
    else
      var next := FirstIndex(availability.elements, IsContinueButton);
      if next.None? then Booking(date, None, None, None, false)
      else
        var email := FirstIndex(contact.elements, IsEmailField);
        if email.None? then Booking(date, next, None, None, false)
        else
          var phone := FirstIndex(contact.elements, IsPhoneField);
          if phone.None? then Booking(date, next, email, None, false)
          else Booking(date, next, email, phone, Any(contact.elements, IsConfirmButton))
  }

  /** A contact page without an email field: the Selenium bot still submits, this one gives up. */
  lemma ContactFieldsRequired(availability: Page, contact: Page)
    requires Any(availability.elements, IsDateRadio) && Any(availability.elements, IsContinueButton)
    requires Any(contact.elements, IsConfirmButton)
    requires forall i :: 0 <= i < |contact.elements| ==> !IsEmailField(contact.elements[i])
    ensures !AutoSelect(availability, contact).submitted
    ensures SeleniumBot.AutoSelect(availability, contact).submitted
  {
  }

  /**
   * The two variants choose service radios differently: one by the radio's
   * `value`, the other by its parent's text, so a radio labelled only in its
   * value is chosen here and not there.
   */
  lemma RadioChoiceDiffers(r: Element, marker: string)
    requires IsRadio(r) && ValueHas(r, marker) && !Contains(Upper(r.parentText), marker)
    ensures ValueRadio(Page("", "", [r], []), marker) == Some(0)
    ensures SeleniumBot.ChosenRadio(Page("", "", [r], []), marker).None?
  {
    assert [r][0] == r;
  }

  // ---- one province --------------------------------------------------------

  /**
   * One `check_province_appointments(province)`: what its `try` block
   * returned, the steps it ran (none when no page was opened or the start
   * URL failed to load), the radios it checked, the auto-booking, the page
   * and context lifecycle, and whether `page.close()` in the `finally`
   * raised, which replaces the returned value with that exception.
   */
  datatype Check = Check(
    result: Option<Appointment>,
    progress: Option<Steps.Progress>,
    radios: (Option<nat>, Option<nat>),
    booking: Option<Booking>,
    pageCreated: bool,
    pageClosed: bool,
    contextAfter: bool,
    raised: bool)

  /**
   * `contextUp` says whether a browser context exists when the check starts,
   * `launches` whether initialising one would succeed. `office` is the
   * office extractor: `OfficeAsWritten` for the program as it stands,
   * `OfficeIntended` for the corrected one.
   */
  function CheckProvince(office: seq<Element> -> string, contextUp: bool, launches: bool, s: Session,
                         profile: Portal.UserProfile, province: string, timestamp: string): (c: Check)
    ensures c.pageClosed == c.pageCreated
    ensures c.raised <==> c.pageCreated && !s.closes
    ensures c.pageCreated <==> (contextUp || launches) && s.pageOpens
    ensures c.contextAfter <==> contextUp || launches
    ensures c.progress.Some? <==> c.pageCreated && s.loads
    ensures c.progress.Some? ==> c.progress.value == Steps.Run(StepResults(s, profile, province))
    ensures c.result.Some? <==> c.progress.Some? && c.progress.value.completed && RenderedOpen(s.availability)
    ensures c.booking.Some? <==> c.result.Some?
    ensures c.result.Some? ==>
              && c.result.value.province == province
              && c.result.value.dates == DateTokens(s.availability.elements)
              && c.result.value.office == office(s.availability.elements)
              && c.result.value.bookingAttempted == c.booking.value.submitted
    ensures c.radios.0.Some? ==> c.progress.Some? && |c.progress.value.trace| >= 2
    ensures c.radios.1.Some? ==> c.radios.0.Some? && PoliceChoiceAccepted(s)
                                 && c.radios.1 == ValueRadio(s.asylumServices, Portal.AsylumMarker)
  {
    var contextAfter := contextUp || launches;
    var created := contextAfter && s.pageOpens;
    // `if page: await page.close()` sits in the `finally`, outside the `except`.
    var raised := created && !s.closes;
    if !created || !s.loads then
      Check(None, None, (None, None), None, created, created, contextAfter, raised)
    else
      var progress := Steps.Run(StepResults(s, profile, province));
      var reachedService := |progress.trace| >= 2;
      var police := if reachedService then ValueRadio(s.services, Portal.PoliceMarker) else None;
      // A failing `check()` or `Aceptar` click raises before the asylum page.
      var asylum := if reachedService && PoliceChoiceAccepted(s) then ValueRadio(s.asylumServices, Portal.AsylumMarker)
                    else None;
      var radios := (police, asylum);
      var verdict := CheckAvailability(s.availability, office);
      if progress.completed && verdict.open then
        var booking := AutoSelect(s.availability, s.contact);
        Check(Some(Appointment(province, timestamp, verdict.details.value.dates, verdict.details.value.office,
                         booking.submitted)),
              Some(progress), radios, Some(booking), true, true, contextAfter, raised)
      else
        Check(None, Some(progress), radios, None, true, true, contextAfter, raised)
  }

  /** A failed navigation to the start URL ends the check before the province step; the page is still closed. */
  lemma NavigationPrecedesSteps(office: seq<Element> -> string, contextUp: bool, launches: bool, s: Session,
                                profile: Portal.UserProfile, province: string, timestamp: string)
    requires contextUp && s.pageOpens && !s.loads
    ensures CheckProvince(office, contextUp, launches, s, profile, province, timestamp).progress.None?
    ensures CheckProvince(office, contextUp, launches, s, profile, province, timestamp).result.None?
    ensures CheckProvince(office, contextUp, launches, s, profile, province, timestamp).pageClosed
  {
  }

  /**
   * The program as written finds the same appointments as the corrected one
   * and books the same way, but every finding it reports has an empty office.
   */
  lemma OfficeAsReported(contextUp: bool, launches: bool, s: Session, profile: Portal.UserProfile,
                         province: string, timestamp: string)
    ensures var written := CheckProvince(OfficeAsWritten, contextUp, launches, s, profile, province, timestamp);
            var intended := CheckProvince(OfficeIntended, contextUp, launches, s, profile, province, timestamp);
            && (written.result.Some? <==> intended.result.Some?)
            && written.booking == intended.booking
            && (written.result.Some? ==> written.result.value.office == "")
            && (intended.result.Some? ==> intended.result.value.office == OfficeIntended(s.availability.elements))
            && (written.result.Some? ==> written.result.value == intended.result.value.(office := ""))
  {
  }

  // ---- the cycle -----------------------------------------------------------

  /** The checks of a cycle whose browser is up: every check finds the context in place. */
  function Checks(office: seq<Element> -> string, provinces: seq<(string, Session)>, profile: Portal.UserProfile,
                  timestamp: string): (r: seq<Check>)
    ensures |r| == |provinces|
    ensures forall i :: 0 <= i < |r| ==>
              r[i] == CheckProvince(office, true, false, provinces[i].1, profile, provinces[i].0, timestamp)
  {
    seq(|provinces|, i requires 0 <= i < |provinces| =>
      CheckProvince(office, true, false, provinces[i].1, profile, provinces[i].0, timestamp))
  }

  function AvailabilityPage(s: Session): Page {
    s.availability
  }

  /** A check whose `page.close()` raised reaches the loop as that exception, losing its result. */
  function Finding(c: Check): Cycle.CheckOutcome<Appointment> {
    if c.raised then Cycle.Raised else AsOutcome(c.result)
  }

  lemma ChecksSound(office: seq<Element> -> string, provinces: seq<(string, Session)>, profile: Portal.UserProfile,
                    timestamp: string)
    ensures FindingsSound(Visited(provinces, AvailabilityPage), Results(Checks(office, provinces, profile, timestamp), Finding))
  {
    var checks := Checks(office, provinces, profile, timestamp);
    forall i | 0 <= i < |checks| && Finding(checks[i]).Found?
      ensures checks[i].result.value.province == provinces[i].0 && RenderedOpen(provinces[i].1.availability)
    {
      assert checks[i] == CheckProvince(office, true, false, provinces[i].1, profile, provinces[i].0, timestamp);
    }
  }

  /**
   * A province whose page opens but fails to close reaches the loop as an
   * exception, whatever the check found, so `Cycle.FailureIsIsolated` applies.
   */
  lemma FailedCloseIsRaised(office: seq<Element> -> string, provinces: seq<(string, Session)>,
                            profile: Portal.UserProfile, timestamp: string, i: nat)
    requires i < |provinces| && provinces[i].1.pageOpens && !provinces[i].1.closes
    ensures Outcomes(Visited(provinces, AvailabilityPage), Results(Checks(office, provinces, profile, timestamp), Finding))[i]
            == (provinces[i].0, Cycle.Raised)
  {
  }

  /** Even a submitted booking goes unreported when the page then fails to close. */
  lemma FailedCloseLosesFinding(office: seq<Element> -> string, s: Session, profile: Portal.UserProfile,
                                province: string, timestamp: string)
    requires s.pageOpens && !s.closes
    ensures RunSingleCheck(office, true, false, [(province, s)], profile, timestamp).found == []
    ensures RunSingleCheck(office, true, false, [(province, s)], profile, timestamp).notices == []
  {
  }

  /**
   * `run_single_check()`: the browser is started first when absent; if that
   * fails the cycle ends before any province, otherwise every province is
   * checked in order.
   */
  function RunSingleCheck(office: seq<Element> -> string, browserUp: bool, launches: bool,
                          provinces: seq<(string, Session)>, profile: Portal.UserProfile,
                          timestamp: string): (rep: Cycle.Report<Appointment>)
    ensures !browserUp && !launches ==> rep == Cycle.Report([], [], [])
    ensures browserUp || launches ==> |rep.pauses| == |provinces|
    ensures |rep.found| == |rep.notices|
    ensures NoticesSound(Visited(provinces, AvailabilityPage), rep.notices)
  {
    if !browserUp && !launches then Cycle.Report([], [], [])
    else
      var visited := Visited(provinces, AvailabilityPage);
      var results := Results(Checks(office, provinces, profile, timestamp), Finding);
      ChecksSound(office, provinces, profile, timestamp);
      NoticesComeFromOpenPages(visited, results);
      Cycle.RunCycle(Outcomes(visited, results))
  }
}

=== FILE: portal.dfy ===
/** Fixed facts about the booking portal the bot drives, and the applicant's profile. */
module Portal {

  const Origin: string := "https://icp.administracionelectronica.gob.es"
  const BaseUrl: string := "https://icp.administracionelectronica.gob.es/icpplus/acOpcDirect"

  /** URL fragments that identify each page of the workflow. */
  const ServicePageMarker: string := "citar?p=4&locale=es"
  const InfoPageMarker: string := "acInfo"
  const EntryPageMarker: string := "acEntrada"

  /** Form field names and button labels. */
  const ProvinceField: string := "provincia"
  const DocTypeField: string := "rdbTipoDoc"
  const PassportOption: string := "Pasaporte"
  const IdField: string := "txtIdCitado"
  const NameField: string := "txtDesCitado"
  const BirthYearField: string := "txtAnnoCitado"
  const CountryField: string := "txtPaisNac"
  const AcceptLabel: string := "Aceptar"
  const EnterLabel: string := "Entrar"

  /** Markers looked for in the two service-choice pages. */
  const PoliceMarker: string := "POLICIA"
  const AsylumMarker: string := "ASILO"

  /** The applicant's data, fixed for the life of the process. */
  datatype UserProfile = UserProfile(
    passportNumber: string,
    fullName: string,
    birthYear: string,
    nationality: string,
    email: string,
    phone: string)
}

=== FILE: retry.dfy ===
/**
 * The retry policy that wraps every HTTP request of the requests-based bot
 * (`_make_request_with_retry`). The network is replaced by a script of
 * outcomes, one per attempt; the sleeps become the list of delays the loop
 * would wait.
 */
module Retry {
  import opened Wrappers

  /** What one attempt observes: a response, or one of the three exception classes. */
  datatype Outcome<B> =
    | Answer(status: int, url: string, body: B)
    | ConnError
    | Timeout
    | OtherError

  /** The `(content, url, status)` triple returned on success. */
  datatype Fetched<B> = Fetched(content: B, url: string, status: int)

  /** The returned value, how many requests were made, and the delays slept between them. */
  datatype Run<B> = Run(result: Option<Fetched<B>>, attempts: nat, delays: seq<nat>)

  const DefaultMaxRetries: int := 3
  const DelayCap: nat := 6

  function Pow2(n: nat): nat {
    if n == 0 then 1 else 2 * Pow2(n - 1)
  }

  /** Seconds slept before 0-based attempt `a`: nothing before the first, then `min(2 ** a, 6)`. */
  function Backoff(a: nat): nat {
    if a == 0 then 0 else if Pow2(a) < DelayCap then Pow2(a) else DelayCap
  }

  lemma {:induction false} Pow2AtLeastEight(n: nat)
    requires n >= 3
    ensures Pow2(n) >= 8
  {
    if n > 3 {
      Pow2AtLeastEight(n - 1);
    }
  }

  /** The schedule is 0, 2, 4, 6, 6, ...: never more than six seconds. */
  lemma BackoffSchedule(a: nat)
    ensures a == 0 ==> Backoff(a) == 0
    ensures a == 1 ==> Backoff(a) == 2
    ensures a == 2 ==> Backoff(a) == 4
    ensures a >= 3 ==> Backoff(a) == DelayCap
    ensures Backoff(a) <= DelayCap
  {
    if a >= 3 {
      Pow2AtLeastEight(a);
    }
  }

  /** Outcomes after which the loop tries again: 5xx answers and every exception class. */
  predicate Transient<B>(o: Outcome<B>) {
    match o
    case Answer(status, _, _) => status >= 500
    case _ => true
  }

  /** What a non-transient outcome makes the call return: the triple below 400, `None` for 4xx. */
  function Settle<B>(o: Outcome<B>): Option<Fetched<B>>
    requires !Transient(o)
  {
    if o.status < 400 then Some(Fetched(o.body, o.url, o.status)) else None
  }

  /** The outcome of attempt `a`; an attempt past the end of the script never connects. */
  function OutcomeAt<B>(outs: seq<Outcome<B>>, a: nat): Outcome<B> {
    if a < |outs| then outs[a] else ConnError
  }

  /** The first attempt that is preceded by a sleep, among attempts `a`, `a + 1`, ... */
  function FirstDelayed(a: nat): nat {
    if a == 0 then 1 else a
  }

  function Prepend<B>(wait: seq<nat>, r: Run<B>): Run<B> {
    r.(delays := wait + r.delays)
  }

  /** Iterations `a`, `a + 1`, ... of `for attempt in range(max_retries)`. */
  function RetryFrom<B>(outs: seq<Outcome<B>>, maxRetries: int, a: nat): (r: Run<B>)
    ensures a >= maxRetries ==> r == Run(None, a, [])
    ensures a < maxRetries ==> a < r.attempts <= maxRetries
    ensures a < maxRetries ==> |r.delays| == r.attempts - FirstDelayed(a)
    ensures forall k :: 0 <= k < |r.delays| ==> r.delays[k] == Backoff(FirstDelayed(a) + k)
    ensures forall j :: a <= j < r.attempts - 1 ==> Transient(OutcomeAt(outs, j))
    ensures a < maxRetries && Transient(OutcomeAt(outs, r.attempts - 1)) ==>
              r.attempts == maxRetries && r.result == None
    ensures a < maxRetries && !Transient(OutcomeAt(outs, r.attempts - 1)) ==>
              r.result == Settle(OutcomeAt(outs, r.attempts - 1))
    decreases maxRetries - a
  {
    if a >= maxRetries then Run(None, a, [])
    else
      var wait := if a > 0 then [Backoff(a)] else [];
      var o := OutcomeAt(outs, a);
      if !Transient(o) then Run(Settle(o), a + 1, wait)
      else if a == maxRetries - 1 then Run(None, a + 1, wait)
      else Prepend(wait, RetryFrom(outs, maxRetries, a + 1))
  }

  /** `_make_request_with_retry(method, url, max_retries)` against a scripted server. */
  function MakeRequestWithRetry<B>(outs: seq<Outcome<B>>, maxRetries: int): (r: Run<B>)
    ensures r.attempts <= if maxRetries < 0 then 0 else maxRetries
    ensures maxRetries <= 0 ==> r == Run(None, 0, [])
    ensures r.attempts > 0 ==> |r.delays| == r.attempts - 1
    ensures forall k :: 0 <= k < |r.delays| ==> r.delays[k] == Backoff(k + 1) && r.delays[k] <= DelayCap
  {
    var r := RetryFrom(outs, maxRetries, 0);
    forall k | 0 <= k < |r.delays|
      ensures r.delays[k] <= DelayCap
    {
      BackoffSchedule(k + 1);
    }
    r
  }

  /** The source's loop itself: each iteration sleeps, tries, and returns or moves on. */
  method RequestWithRetry<B>(outs: seq<Outcome<B>>, maxRetries: int) returns (r: Run<B>)
    ensures r == MakeRequestWithRetry(outs, maxRetries)
  {
    var delays: seq<nat> := [];
    var attempt: nat := 0;
    while attempt < maxRetries
      invariant Prepend(delays, RetryFrom(outs, maxRetries, attempt)) == RetryFrom(outs, maxRetries, 0)
      decreases maxRetries - attempt
    {
      var wait := if attempt > 0 then [Backoff(attempt)] else [];
      match OutcomeAt(outs, attempt) {
        case Answer(status, url, body) =>
          if status >= 500 {
            if attempt == maxRetries - 1 {
              return Run(None, attempt + 1, delays + wait);
            }
          } else if status >= 400 {
            return Run(None, attempt + 1, delays + wait);
          } else {
            return Run(Some(Fetched(body, url, status)), attempt + 1, delays + wait);
          }
        case _ =>
          if attempt == maxRetries - 1 {
            return Run(None, attempt + 1, delays + wait);
          }
      }
      assert delays + (wait + RetryFrom(outs, maxRetries, attempt + 1).delays)
          == (delays + wait) + RetryFrom(outs, maxRetries, attempt + 1).delays;
      delays := delays + wait;
      attempt := attempt + 1;
    }
    assert delays + [] == delays;
    return Run(None, attempt, delays);
  }

  /** The call returns what the first non-transient attempt settles to, and makes no further request. */
  lemma RetrySettles<B>(outs: seq<Outcome<B>>, maxRetries: int, k: nat)
    requires k < maxRetries
    requires forall j :: 0 <= j < k ==> Transient(OutcomeAt(outs, j))
    requires !Transient(OutcomeAt(outs, k))
    ensures MakeRequestWithRetry(outs, maxRetries).attempts == k + 1
    ensures MakeRequestWithRetry(outs, maxRetries).result == Settle(OutcomeAt(outs, k))
  {
    var r := RetryFrom(outs, maxRetries, 0);
    assert r.attempts - 1 <= k;
  }

  /** When every allowed attempt fails transiently, all `max_retries` attempts are made and `None` is returned. */
  lemma RetryExhausts<B>(outs: seq<Outcome<B>>, maxRetries: int)
    requires forall j :: 0 <= j < maxRetries ==> Transient(OutcomeAt(outs, j))
    ensures MakeRequestWithRetry(outs, maxRetries).result == None
    ensures MakeRequestWithRetry(outs, maxRetries).attempts == if maxRetries < 0 then 0 else maxRetries
  {
  }

  /** Outcomes scripted after the last attempt made are never consumed. */
  lemma {:induction false} LaterOutcomesUnused<B>(outs: seq<Outcome<B>>, other: seq<Outcome<B>>, maxRetries: int, a: nat)
    requires forall j :: a <= j < RetryFrom(outs, maxRetries, a).attempts ==> OutcomeAt(outs, j) == OutcomeAt(other, j)
    ensures RetryFrom(other, maxRetries, a) == RetryFrom(outs, maxRetries, a)
    decreases maxRetries - a
  {
    if a < maxRetries {
      assert OutcomeAt(outs, a) == OutcomeAt(other, a);
      if a < maxRetries - 1 && Transient(OutcomeAt(outs, a)) {
        LaterOutcomesUnused(outs, other, maxRetries, a + 1);
      }
    }
  }
}

=== FILE: selenium_bot.dfy ===
/**
 * The Selenium bot (`AsylumAppointmentBotSelenium`). One province check
 * starts a driver if none is running, walks the four portal steps, reads the
 * availability page, tries to book, and always quits the driver. The browser
 * is replaced by the page shown after each action of the check.
 */
module SeleniumBot {
  import opened Wrappers
  import opened Text
  import opened Seqs
  import opened Html
  import opened Availability
  import opened Browser
  import Steps
  import Cycle
  import Portal

  /**
   * Whether a WebDriver is held (`self.driver`) when a check starts. A held
   * driver is used as it is; whether its pages load is up to the session.
   */
  datatype Driver = Absent | Running

  /**
   * The pages of one check: after opening the start URL, after accepting the
   * province, after accepting the police service, after accepting the asylum
   * service, after `Entrar`, after submitting the user data, and after the
   * continue button of auto-booking. `launches` says whether starting a
   * driver would succeed, `quits` whether `driver.quit()` returns normally.
   */
  datatype Session = Session(
    launches: bool,
    quits: bool,
    start: Page,
    services: Page,
    asylumServices: Page,
    info: Page,
    entry: Page,
    availability: Page,
    contact: Page)

  /** `driver.find_element(By.NAME, n)`: the first element with that name. */
  function FindByName(p: Page, n: string): (r: Option<Element>)
    ensures r.Some? <==> exists i :: 0 <= i < |p.elements| && Named(p.elements[i], n)
    ensures r.Some? ==> Named(r.value, n) && r.value in p.elements
  {
    match FirstIndex(p.elements, e => Named(e, n))
    case None => None
    case Some(i) => Some(p.elements[i])
  }

  /** `Select(find_element(By.NAME, n)).select_by_visible_text(caption)` succeeds. */
  predicate SelectsByName(p: Page, n: string, caption: string) {
    var e := FindByName(p, n);
    e.Some? && e.value.tag == "select" && OffersLabel(e.value, caption)
  }

  // ---- the four steps ------------------------------------------------------

  /** `select_province`: a driver is available, the province is offered, `Aceptar` exists, and the service page is reached. */
  predicate ProvinceSelected(driver: Driver, s: Session, province: string) {
    && (driver == Running || s.launches)
    && SelectsByName(s.start, Portal.ProvinceField, province)
    && HasButton(s.start, Portal.AcceptLabel)
    && Contains(s.services.url, Portal.ServicePageMarker)
  }

  /**
   * The first choice page shows a radio (the wait for one succeeds) and
   * `Aceptar` (its `find_element` succeeds): only then is the asylum page shown.
   */
  predicate PoliceChoiceAccepted(s: Session) {
    HasRadio(s.services) && HasButton(s.services, Portal.AcceptLabel)
  }

  /** `select_service_type`: both choice pages show a radio and `Aceptar`, and the information page is reached. */
  predicate ServiceSelected(s: Session) {
    && PoliceChoiceAccepted(s)
    && HasRadio(s.asylumServices) && HasButton(s.asylumServices, Portal.AcceptLabel)
    && Contains(s.info.url, Portal.InfoPageMarker)
  }

  /** `proceed_to_entry_form`: `Entrar` exists and the entry form is reached. */
  predicate EntryReached(s: Session) {
    HasButton(s.info, Portal.EnterLabel) && Contains(s.entry.url, Portal.EntryPageMarker)
  }

  /** `fill_user_data`: the document type and country selects offer the wanted labels, the text fields and `Aceptar` exist. */
  predicate UserDataFilled(s: Session, profile: Portal.UserProfile) {
    && SelectsByName(s.entry, Portal.DocTypeField, Portal.PassportOption)
    && FindByName(s.entry, Portal.IdField).Some?
    && FindByName(s.entry, Portal.NameField).Some?
    && FindByName(s.entry, Portal.BirthYearField).Some?
    && SelectsByName(s.entry, Portal.CountryField, profile.nationality)
    && HasButton(s.entry, Portal.AcceptLabel)
  }

  /**
   * What each step would report, in the order the check runs them. A driver
   * that cannot be started, a province that is not offered, or a service page
   * that is never reached fails the first step; a nationality the country
   * list does not offer fails the fourth.
   */
  function StepResults(driver: Driver, s: Session, profile: Portal.UserProfile, province: string): (checks: seq<bool>)
    ensures |checks| == |Steps.Order|
    ensures driver == Absent && !s.launches ==> !checks[0]
    ensures checks[0] ==> SelectsByName(s.start, Portal.ProvinceField, province)
                          && Contains(s.services.url, Portal.ServicePageMarker)
    ensures checks[3] ==> SelectsByName(s.entry, Portal.CountryField, profile.nationality)
  {
    [ProvinceSelected(driver, s, province), ServiceSelected(s), EntryReached(s), UserDataFilled(s, profile)]
  }

  /**
   * The radio clicked on a service-choice page: the first radio whose
   * parent's text, upper-cased, contains `marker`; none when no radio does,
   * and the step goes on regardless.
   */
  function ChosenRadio(p: Page, marker: string): (r: Option<nat>)
    ensures r.Some? ==> r.value < |p.elements| && IsRadio(p.elements[r.value])
                        && Contains(Upper(p.elements[r.value].parentText), marker)
    ensures r.Some? ==> forall j :: 0 <= j < r.value && IsRadio(p.elements[j]) ==>
                          !Contains(Upper(p.elements[j].parentText), marker)
    ensures r.None? <==> forall j :: 0 <= j < |p.elements| && IsRadio(p.elements[j]) ==>
                           !Contains(Upper(p.elements[j].parentText), marker)
  {
    FirstIndex(p.elements, e => IsRadio(e) && Contains(Upper(e.parentText), marker))
  }

  // ---- details and booking -------------------------------------------------

  /** `auto_select_appointment()`: each `find_elements(...)` list is used only when non-empty. */
  function AutoSelect(availability: Page, contact: Page): (b: Booking)
    ensures b.submitted <==> && Any(availability.elements, IsDateRadio)
                             && Any(availability.elements, IsContinueButton)
                             && Any(contact.elements, IsConfirmButton)
    ensures b.date.Some? <==> Any(availability.elements, IsDateRadio)
    ensures b.date.Some? ==> b.date.value < |availability.elements| && IsDateRadio(availability.elements[b.date.value])
                             && forall j :: 0 <= j < b.date.value ==> !IsDateRadio(availability.elements[j])
    ensures b.next.Some? ==> b.date.Some?
    ensures b.email.Some? || b.phone.Some? ==> b.next.Some?
    ensures b.email.Some? ==> b.email.value < |contact.elements| && IsEmailField(contact.elements[b.email.value])
    ensures b.phone.Some? ==> b.phone.value < |contact.elements| && IsPhoneField(contact.elements[b.phone.value])
    ensures b.next.Some? ==> (b.email.Some? <==> Any(contact.elements, IsEmailField))
    ensures b.next.Some? ==> (b.phone.Some? <==> Any(contact.elements, IsPhoneField))
  {
    var date := FirstIndex(availability.elements, IsDateRadio);
    if date.None? then Booking(None, None, None, None, false)
    else
      var next := FirstIndex(availability.elements, IsContinueButton);
      if next.None? then Booking(date, None, None, None, false)
      else
        var email := FirstIndex(contact.elements, IsEmailField);
        var phone := FirstIndex(contact.elements, IsPhoneField);
        Booking(date, next, email, phone, Any(contact.elements, IsConfirmButton))
  }

  /** Missing contact fields are skipped: they never stop the booking from being submitted. */
  lemma ContactFieldsOptional(availability: Page, contact: Page)
    requires Any(availability.elements, IsDateRadio) && Any(availability.elements, IsContinueButton)
    requires Any(contact.elements, IsConfirmButton)
    requires forall i :: 0 <= i < |contact.elements| ==> !IsEmailField(contact.elements[i]) && !IsPhoneField(contact.elements[i])
    ensures AutoSelect(availability, contact).submitted
    ensures AutoSelect(availability, contact).email.None? && AutoSelect(availability, contact).phone.None?
  {
  }

  // ---- one province --------------------------------------------------------

  /**
   * One `check_province_appointments(province)`: the steps it ran, the
   * radios it clicked, the auto-booking when it got that far, whether it
   * tried to start a driver, whether a driver was held when `close_driver`
   * ran, and the driver state it leaves behind.
   */
  datatype Check = Check(
    result: Option<Appointment>,
    progress: Steps.Progress,
    radios: (Option<nat>, Option<nat>),
    booking: Option<Booking>,
    launched: bool,
    held: bool,
    driverAfter: Driver)

  function CheckProvince(driver: Driver, s: Session, profile: Portal.UserProfile, province: string, timestamp: string): (c: Check)
    ensures c.launched <==> driver == Absent
    ensures c.held <==> driver == Running || s.launches
    ensures c.driverAfter == Running <==> c.held && !s.quits
    ensures c.progress == Steps.Run(StepResults(driver, s, profile, province))
    ensures c.result.Some? <==> c.progress.completed && RenderedOpen(s.availability)
    ensures c.booking.Some? <==> c.result.Some?
    ensures c.result.Some? ==>
              && c.result.value.province == province
              && c.result.value.dates == DateTokens(s.availability.elements)
              && c.result.value.office == OfficeText(s.availability.elements)
              && c.result.value.bookingAttempted == c.booking.value.submitted
    ensures c.radios.0.Some? ==> |c.progress.trace| >= 2
    ensures c.radios.1.Some? ==> |c.progress.trace| >= 2 && PoliceChoiceAccepted(s)
                                 && c.radios.1 == ChosenRadio(s.asylumServices, Portal.AsylumMarker)
  {
    var progress := Steps.Run(StepResults(driver, s, profile, province));
    var reachedService := |progress.trace| >= 2;
    var police := if reachedService then ChosenRadio(s.services, Portal.PoliceMarker) else None;
    // The asylum page is only reached once the police page's radio wait and `Aceptar` succeed.
    var asylum := if reachedService && PoliceChoiceAccepted(s) then ChosenRadio(s.asylumServices, Portal.AsylumMarker)
                  else None;
    var radios := (police, asylum);
    var verdict := CheckAvailability(s.availability, OfficeText);
    // `close_driver()` in the `finally`: a failing `quit()` is logged and `self.driver` is kept.
    var held := driver == Running || s.launches;
    var after := if held && !s.quits then Running else Absent;
    if progress.completed && verdict.open then
      var booking := AutoSelect(s.availability, s.contact);
      Check(Some(Appointment(province, timestamp, verdict.details.value.dates, verdict.details.value.office,
                         booking.submitted)),
            progress, radios, Some(booking), driver == Absent, held, after)
    else
      Check(None, progress, radios, None, driver == Absent, held, after)
  }

  /** When the province step fails, no page after the province acceptance is looked at. */
  lemma LaterPagesUnread(driver: Driver, s: Session, t: Session, profile: Portal.UserProfile, province: string, timestamp: string)
    requires !ProvinceSelected(driver, s, province)
    requires s.launches == t.launches && s.quits == t.quits && s.start == t.start && s.services.url == t.services.url
    ensures CheckProvince(driver, s, profile, province, timestamp) == CheckProvince(driver, t, profile, province, timestamp)
    ensures CheckProvince(driver, s, profile, province, timestamp).progress == Steps.Progress([Steps.SelectProvince], false)
  {
    var cs := StepResults(driver, s, profile, province);
    var ct := StepResults(driver, t, profile, province);
    Steps.FailureStopsLaterSteps(cs, ct, 0);
  }

  // ---- the cycle -----------------------------------------------------------

  /**
   * The province checks of one cycle, in configured order: each check finds
   * the driver state the one before it left behind.
   */
  function Checks(driver: Driver, provinces: seq<(string, Session)>, profile: Portal.UserProfile, timestamp: string): (r: seq<Check>)
    ensures |r| == |provinces|
    ensures |r| > 0 ==> r[0] == CheckProvince(driver, provinces[0].1, profile, provinces[0].0, timestamp)
    ensures forall i :: 1 <= i < |r| ==>
              r[i] == CheckProvince(r[i - 1].driverAfter, provinces[i].1, profile, provinces[i].0, timestamp)
    decreases |provinces|
  {
    if provinces == [] then []
    else
      var c := CheckProvince(driver, provinces[0].1, profile, provinces[0].0, timestamp);
      var rest := Checks(c.driverAfter, provinces[1..], profile, timestamp);
      assert forall i :: 1 <= i < |rest| ==> provinces[1..][i] == provinces[i + 1];
      [c] + rest
  }

  /**
   * What `close_driver` leaves decides the next province: after a clean quit
   * it starts a fresh driver, after a failed quit it reuses the kept one.
   */
  lemma FreshDriverPerProvince(driver: Driver, provinces: seq<(string, Session)>, profile: Portal.UserProfile,
                               timestamp: string, i: nat)
    requires 0 < i < |provinces|
    ensures Checks(driver, provinces, profile, timestamp)[i].launched
            <==> !Checks(driver, provinces, profile, timestamp)[i - 1].held || provinces[i - 1].1.quits
  {
    var r := Checks(driver, provinces, profile, timestamp);
    var before := if i == 1 then driver else r[i - 2].driverAfter;
    assert r[i - 1] == CheckProvince(before, provinces[i - 1].1, profile, provinces[i - 1].0, timestamp);
    assert r[i] == CheckProvince(r[i - 1].driverAfter, provinces[i].1, profile, provinces[i].0, timestamp);
  }

  /** When every `quit()` succeeds, the first province uses the bot's driver and every later one starts its own. */
  lemma CleanQuitsRelaunch(driver: Driver, provinces: seq<(string, Session)>, profile: Portal.UserProfile,
                           timestamp: string, i: nat)
    requires i < |provinces|
    requires forall j :: 0 <= j < |provinces| ==> provinces[j].1.quits
    ensures Checks(driver, provinces, profile, timestamp)[i].launched <==> i > 0 || driver == Absent
    ensures Checks(driver, provinces, profile, timestamp)[i].driverAfter == Absent
  {
    var r := Checks(driver, provinces, profile, timestamp);
    var before := if i == 0 then driver else r[i - 1].driverAfter;
    assert r[i] == CheckProvince(before, provinces[i].1, profile, provinces[i].0, timestamp);
    if i > 0 {
      FreshDriverPerProvince(driver, provinces, profile, timestamp, i);
    }
  }

  function AvailabilityPage(s: Session): Page {
    s.availability
  }

  /** `close_driver` logs a failing `quit()`, so every check returns its result to the loop. */
  function Finding(c: Check): Cycle.CheckOutcome<Appointment> {
    AsOutcome(c.result)
  }

  lemma ChecksSound(driver: Driver, provinces: seq<(string, Session)>, profile: Portal.UserProfile, timestamp: string)
    ensures FindingsSound(Visited(provinces, AvailabilityPage), Results(Checks(driver, provinces, profile, timestamp), Finding))
  {
    var checks := Checks(driver, provinces, profile, timestamp);
    forall i | 0 <= i < |checks| && checks[i].result.Some?
      ensures checks[i].result.value.province == provinces[i].0 && RenderedOpen(provinces[i].1.availability)
    {
      if i == 0 {
        assert checks[i] == CheckProvince(driver, provinces[i].1, profile, provinces[i].0, timestamp);
      } else {
        assert checks[i] == CheckProvince(checks[i - 1].driverAfter, provinces[i].1, profile, provinces[i].0, timestamp);
      }
    }
  }

  /** `run_single_check()`: the provinces in order, starting from the driver state of the bot. */
  function RunSingleCheck(driver: Driver, provinces: seq<(string, Session)>, profile: Portal.UserProfile, timestamp: string): (rep: Cycle.Report<Appointment>)
    ensures |rep.pauses| == |provinces|
    ensures |rep.found| == |rep.notices|
    ensures NoticesSound(Visited(provinces, AvailabilityPage), rep.notices)
  {
    var visited := Visited(provinces, AvailabilityPage);
    var results := Results(Checks(driver, provinces, profile, timestamp), Finding);
    ChecksSound(driver, provinces, profile, timestamp);
    NoticesComeFromOpenPages(visited, results);
    Cycle.RunCycle(Outcomes(visited, results))
  }
}

=== FILE: seqs.dfy ===
/** Generic sequence searches shared by the form extractor and the page classifiers. */
module Seqs {
  import opened Wrappers

  /** Index of the first element satisfying `P`: how a `for ... if ...: break` loop picks. */
  function FirstIndex<T>(xs: seq<T>, P: T -> bool): (r: Option<nat>)
    ensures r.Some? ==> r.value < |xs| && P(xs[r.value])
    ensures r.Some? ==> forall j :: 0 <= j < r.value ==> !P(xs[j])
    ensures r.None? <==> forall j :: 0 <= j < |xs| ==> !P(xs[j])
  {
    if xs == [] then None
    else if P(xs[0]) then Some(0)
    else
      match FirstIndex(xs[1..], P)
      case None => None
      case Some(k) => Some(k + 1)
  }

  /** Some element satisfies `P`: the truthiness of a non-empty `find_elements` list. */
  predicate Any<T>(xs: seq<T>, P: T -> bool) {
    exists i :: 0 <= i < |xs| && P(xs[i])
  }
}

=== FILE: steps.dfy ===
/**
 * The forward-only step sequence of one province check: province, service,
 * entry form, user data. A step that fails ends the check; later steps never
 * run.
 */
module Steps {

  datatype Stage = SelectProvince | SelectService | EnterForm | FillUserData

  /** The fixed order in which `check_province_appointments` runs its steps. */
  const Order: seq<Stage> := [SelectProvince, SelectService, EnterForm, FillUserData]

  /** Which steps ran, in order, and whether all of them succeeded. */
  datatype Progress = Progress(trace: seq<Stage>, completed: bool)

  /** How many leading steps succeed. */
  function Passed(checks: seq<bool>): (n: nat)
    ensures n <= |checks|
    ensures forall i :: 0 <= i < n ==> checks[i]
    ensures n < |checks| ==> !checks[n]
  {
    if checks == [] || !checks[0] then 0 else 1 + Passed(checks[1..])
  }

  /** The `if not step(): return None` chain: `checks[i]` is what step `Order[i]` would report. */
  function Run(checks: seq<bool>): (p: Progress)
    requires |checks| == |Order|
    ensures p.completed <==> forall i :: 0 <= i < |checks| ==> checks[i]
    ensures 1 <= |p.trace| <= |Order| && p.trace == Order[..|p.trace|]
    ensures forall i :: 0 <= i < |p.trace| - 1 ==> checks[i]
    ensures p.completed ==> p.trace == Order
    ensures !p.completed ==> !checks[|p.trace| - 1]
  {
    var n := Passed(checks);
    if n == |checks| then Progress(Order, true) else Progress(Order[..n + 1], false)
  }

  /** Whatever the later steps would report, a failing step stops the check at that step. */
  lemma {:induction false} FailureStopsLaterSteps(checks: seq<bool>, other: seq<bool>, k: nat)
    requires |checks| == |Order| && |other| == |Order|
    requires k < |Order| && !checks[k]
    requires forall i :: 0 <= i <= k ==> checks[i] == other[i]
    ensures Run(checks) == Run(other)
    ensures |Run(checks).trace| <= k + 1
  {
    PassedAgree(checks, other, k);
  }

  lemma {:induction false} PassedAgree(a: seq<bool>, b: seq<bool>, k: nat)
    requires k < |a| && k < |b| && !a[k]
    requires forall i :: 0 <= i <= k ==> a[i] == b[i]
    ensures Passed(a) == Passed(b) <= k
    decreases k
  {
    if k > 0 && a[0] {
      PassedAgree(a[1..], b[1..], k - 1);
    }
  }
}

=== FILE: text.dfy ===
/**
 * String primitives the bot relies on: Python's `in` on strings, ASCII case
 * mapping, `str.strip()`, and decimal rendering of integers.
 */
module Text {

  /** `p` occurs in `s` at offset `i`. */
  predicate OccursAt(s: string, p: string, i: nat) {
    i + |p| <= |s| && s[i..i + |p|] == p
  }

  /** The specification of substring search: some offset holds `p`. */
  ghost predicate Occurs(s: string, p: string) {
    exists i: nat :: OccursAt(s, p, i)
  }

  /** Python's `p in s` for strings, as a left-to-right scan. */
  function Contains(s: string, p: string): (r: bool)
    ensures r <==> Occurs(s, p)
    decreases |s|
  {
    if |p| > |s| then
      assert forall i: nat :: !OccursAt(s, p, i);
      false
    else if s[..|p|] == p then
      assert OccursAt(s, p, 0);
      true
    else
      OccursShift(s, p);
      Contains(s[1..], p)
  }

  /** When `p` is not at the front of `s`, it occurs in `s` iff it occurs in `s[1..]`. */
  lemma OccursShift(s: string, p: string)
    requires |p| <= |s| && s[..|p|] != p
    ensures Occurs(s, p) <==> Occurs(s[1..], p)
  {
    if Occurs(s, p) {
      var i: nat :| OccursAt(s, p, i);
      assert i != 0;
      assert s[1..][i - 1..i - 1 + |p|] == s[i..i + |p|];
      assert OccursAt(s[1..], p, i - 1);
    }
    if Occurs(s[1..], p) {
      var j: nat :| OccursAt(s[1..], p, j);
      assert s[j + 1..j + 1 + |p|] == s[1..][j..j + |p|];
      assert OccursAt(s, p, j + 1);
    }
  }

  /** Containment is transitive: a phrase inside a phrase inside `s` is inside `s`. */
  lemma {:induction false} ContainsTransitive(s: string, q: string, p: string)
    requires Contains(s, q) && Contains(q, p)
    ensures Contains(s, p)
  {
    var i: nat :| OccursAt(s, q, i);
    var j: nat :| OccursAt(q, p, j);
    forall k | 0 <= k < |p|
      ensures s[i + j + k] == p[k]
    {
      assert s[i..i + |q|][j + k] == q[j + k];
      assert q[j..j + |p|][k] == q[j + k];
    }
    assert s[i + j..i + j + |p|] == p;
    assert OccursAt(s, p, i + j);
  }

  /** A string placed between two others occurs right after the first. */
  lemma OccursBetween(a: string, p: string, b: string)
    ensures OccursAt(a + p + b, p, |a|)
    ensures Contains(a + p + b, p)
  {
    assert (a + p + b)[|a|..|a| + |p|] == p;
    assert OccursAt(a + p + b, p, |a|);
    assert Occurs(a + p + b, p);
  }

  predicate StartsWith(s: string, p: string) {
    |p| <= |s| && s[..|p|] == p
  }

  predicate EndsWith(s: string, p: string) {
    |p| <= |s| && s[|s| - |p|..] == p
  }

  /** Python's `str.lower()` restricted to ASCII letters. */
  function LowerChar(c: char): char {
    if 'A' <= c <= 'Z' then (c as int + 32) as char else c
  }

  /** Python's `str.upper()` restricted to ASCII letters. */
  function UpperChar(c: char): char {
    if 'a' <= c <= 'z' then (c as int - 32) as char else c
  }

  function Lower(s: string): (r: string)
    ensures |r| == |s|
    ensures forall i :: 0 <= i < |s| ==> r[i] == LowerChar(s[i])
  {
    seq(|s|, i requires 0 <= i < |s| => LowerChar(s[i]))
  }

  function Upper(s: string): (r: string)
    ensures |r| == |s|
    ensures forall i :: 0 <= i < |s| ==> r[i] == UpperChar(s[i])
  {
    seq(|s|, i requires 0 <= i < |s| => UpperChar(s[i]))
  }

  /** A case-sensitive match survives lowering both sides. */
  lemma {:induction false} LowerPreservesOccurrence(s: string, p: string)
    requires Contains(s, p)
    ensures Contains(Lower(s), Lower(p))
  {
    var i: nat :| OccursAt(s, p, i);
    assert Lower(s)[i..i + |p|] == Lower(p);
    assert OccursAt(Lower(s), Lower(p), i);
  }

  /** The characters Python's `str.isspace()` accepts. */
  predicate IsSpace(c: char) {
    || ('\U{9}' <= c <= '\U{D}')
    || ('\U{1C}' <= c <= '\U{20}')
    || c == '\U{85}' || c == '\U{A0}' || c == '\U{1680}'
    || ('\U{2000}' <= c <= '\U{200A}')
    || c == '\U{2028}' || c == '\U{2029}' || c == '\U{202F}' || c == '\U{205F}' || c == '\U{3000}'
  }

  /** The first index at or after `i` that does not hold whitespace, or `|s|`. */
  function SkipSpaces(s: string, i: nat): (k: nat)
    requires i <= |s|
    ensures i <= k <= |s|
    ensures forall j :: i <= j < k ==> IsSpace(s[j])
    ensures k < |s| ==> !IsSpace(s[k])
    decreases |s| - i
  {
    if i == |s| || !IsSpace(s[i]) then i else SkipSpaces(s, i + 1)
  }

  /** The end of `s[..j]` once trailing whitespace is dropped. */
  function DropSpaces(s: string, j: nat): (k: nat)
    requires j <= |s|
    ensures k <= j
    ensures forall m :: k <= m < j ==> IsSpace(s[m])
    ensures k > 0 ==> !IsSpace(s[k - 1])
  {
    if j == 0 || !IsSpace(s[j - 1]) then j else DropSpaces(s, j - 1)
  }

  /** Python's `str.strip()` with no argument. */
  function Trim(s: string): (r: string)
    ensures r == [] || (!IsSpace(r[0]) && !IsSpace(r[|r| - 1]))
  {
    var a := SkipSpaces(s, 0);
    var b := DropSpaces(s, |s|);
    if b <= a then [] else s[a..b]
  }

  /** `strip` keeps a slice of the string and drops only whitespace around it. */
  lemma TrimIsSlice(s: string)
    ensures exists a: nat, b: nat ::
              && a <= b <= |s| && Trim(s) == s[a..b]
              && (forall i :: 0 <= i < a ==> IsSpace(s[i]))
              && (forall i :: b <= i < |s| ==> IsSpace(s[i]))
  {
    var a := SkipSpaces(s, 0);
    var b := DropSpaces(s, |s|);
    if b <= a {
      assert Trim(s) == s[a..a];
    } else {
      assert Trim(s) == s[a..b];
    }
  }

  lemma {:induction false} SkipSpacesStops(s: string, i: nat, m: nat)
    requires i <= m <= |s|
    requires forall j :: i <= j < m ==> IsSpace(s[j])
    requires m < |s| ==> !IsSpace(s[m])
    ensures SkipSpaces(s, i) == m
    decreases |s| - i
  {
    if i < m {
      SkipSpacesStops(s, i + 1, m);
    }
  }

  lemma {:induction false} DropSpacesStops(s: string, j: nat, m: nat)
    requires m <= j <= |s|
    requires forall k :: m <= k < j ==> IsSpace(s[k])
    requires m > 0 ==> !IsSpace(s[m - 1])
    ensures DropSpaces(s, j) == m
    decreases j
  {
    if m < j {
      DropSpacesStops(s, j - 1, m);
    }
  }

  /** Whitespace padding around a word without outer whitespace is exactly what `strip` removes. */
  lemma TrimRemovesPadding(pre: string, w: string, post: string)
    requires forall i :: 0 <= i < |pre| ==> IsSpace(pre[i])
    requires forall i :: 0 <= i < |post| ==> IsSpace(post[i])
    requires w == [] || (!IsSpace(w[0]) && !IsSpace(w[|w| - 1]))
    requires w != [] || pre + post == []
    ensures Trim(pre + w + post) == w
  {
    var s := pre + w + post;
    if w == [] {
      assert s == [];
    } else {
      SkipSpacesStops(s, 0, |pre|);
      DropSpacesStops(s, |s|, |pre| + |w|);
      assert s[|pre|..|pre| + |w|] == w;
    }
  }


  function DigitChar(d: nat): char
    requires d < 10
  {
    ('0' as int + d) as char
  }

  function DigitValue(c: char): nat {
    if '0' <= c <= '9' then c as int - '0' as int else 0
  }

  predicate IsDigit(c: char) {
    '0' <= c <= '9'
  }

  /** Python's `f"{n}"` for a non-negative integer. */
  function NatToString(n: nat): (r: string)
    ensures |r| >= 1
    ensures forall i :: 0 <= i < |r| ==> IsDigit(r[i])
    ensures n >= 10 ==> r[0] != '0'
  {
    if n < 10 then [DigitChar(n)] else NatToString(n / 10) + [DigitChar(n % 10)]
  }

  /** Reads a run of decimal digits back as a number. */
  function ParseNat(s: string): nat {
    if s == [] then 0 else 10 * ParseNat(s[..|s| - 1]) + DigitValue(s[|s| - 1])
  }

  /** Decimal rendering is faithfully read back. */
  lemma {:induction false} ParseNatToString(n: nat)
    ensures ParseNat(NatToString(n)) == n
  {
    if n >= 10 {
      var s := NatToString(n / 10) + [DigitChar(n % 10)];
      assert s[..|s| - 1] == NatToString(n / 10);
      ParseNatToString(n / 10);
    }
  }
}

=== FILE: wrappers.dfy ===
/** Optional values: the model's stand-in for Python's `None`-or-value returns. */
module Wrappers {

  datatype Option<+T> = None | Some(value: T) {

    /** The value if present, otherwise `default` (Python's `d.get(k, default)`). */
    function GetOr(default: T): T {
      match this
      case Some(v) => v
      case None => default
    }
  }
}
